=== FILE: README.md ===
# Task manager frontend: query, filter and mailbox logic

This project models the pure decision logic of a React task-management frontend, in Dafny. The frontend has two roles, admin and user. The model covers:

- **Task list query.** The Manage Tasks page (admin) and the My Tasks page (user) build the request parameters for the task list from the selected user, the selected status, the tab status, the sort option and the search term. Each page then sorts the returned tasks on the client and builds the four status tabs.
- **Filter sidebar.** The sidebar toggles the user and status selections, tracks the sort select and the expanded user rows, resets all filters, and shows per-user task badges. It reports each change to its parent page through optional callbacks.
- **Manage Users.** The page joins the user roster with the per-status task groups. It then sends one update per field the admin changed.
- **Reject modal.** On the user's assignment mailbox, a reject needs a non-blank reason.
- **Admin mailbox.** It joins each assignment request with the full task list.
- **User card.** The card chooses an avatar image or an initial, and a colour for each status tile.
- **Routing.** The root route redirects by role. The route table carries each route's guard.

Modules follow the source files. `Wrappers`, `Js` and `Text` hold the JavaScript semantics the pages rely on: truthiness of optional values, `||` defaults, `String.prototype.trim` and `split`. `LastWins` models a lookup object filled by `forEach`, where a later entry with the same id overwrites an earlier one. `TaskData`, `SortOption`, `TaskOrder` and `TaskQuery` are shared by the two task pages, `ManageTasksPage` and `MyTaskPage`. `GroupedTasks` is the per-user task-group payload that `SideMenu` and `ManageUsersPage` consume. `Requests`, `UserMailbox` and `AdminMailbox` cover the assignment mailbox. `UserCard` and `Routing` cover the card and the routes.

HTTP results are passed in as `Fetched<T>` values: either `Loaded(body)` or `FetchFailed`. A missing field of a response body is `None`. Each handler is a pure function from the old state to the new state. Where a handler talks to a parent or the server, it also returns the callbacks it makes or the call it issues.

Behaviours of the code worth noting:

- The status used in a task query is `selectedStatus || filterStatus`. This is JavaScript truthiness, so an empty selected status also falls back to the tab.
- A search term is forwarded exactly as typed, without trimming. Any whitespace-only search term is sent as typed (`TaskQuery.BlankSearchIsSent`).
- When a fetch fails, Manage Tasks keeps its previous tasks and tabs, but My Tasks empties both.
- On Manage Tasks, clearing the sidebar status does not reset the tab status, so the list stays filtered by it (`ManageTasksPage.ClearingStatusKeepsFilter`).
- Opening the reject modal for a second request keeps the reason typed for the first (`UserMailbox.DraftKeptAcrossRequests`).
- My Tasks passes `onSearchChange` to its layout (src/pages/User/MyTask.jsx:97), but the sidebar's props (src/components/SideMenuSortTask.jsx:14-22) never read it. Nothing in these files sets the search term, so it stays `""`. The model still covers `MyTaskPage.SetSearch` for any term.
- The admin mailbox keys its task lookup by the request's `taskId`, which JavaScript coerces to a string key. A bare id is used as is, a populated object becomes `"[object Object]"`, a missing field becomes `"undefined"` and `null` becomes `"null"` (`AdminMailbox.JoinKey`).
- The `/user/...` routes are declared with the guard `allowedRoles={["admin"]}`, the same as the admin routes (`Routing.NonAdminSentToAdminOnlyRoute`).

## Model

| member | source | states |
|---|---|---|
| Text.Trim | src/components/TaskAssignmentMailbox.jsx:49 | trimming gives the empty string exactly when the reason consists only of JavaScript whitespace; otherwise the result starts and ends with a non-whitespace character. The result is the contiguous slice of the input left after removing the leading and the trailing whitespace |
| Text.TrimPieces | src/components/TaskAssignmentMailbox.jsx:49 | removing leading then trailing whitespace leaves nothing iff the input is blank, and otherwise a slice of the input that starts with a non-whitespace character, with only whitespace after it |
| Text.Split | src/pages/Admin/ManageTasks.jsx:35 | splitting on `_` gives at least one piece, no piece contains `_`, and joining the pieces with `_` gives back the input |
| Text.SplitJoin | src/pages/Admin/ManageTasks.jsx:35 | splitting the `_`-join of `_`-free pieces gives back exactly those pieces (the inverse of `Split`) |
| LastWins.Find | src/pages/Admin/ManageUsers.jsx:26-28 | the lookup finds nothing exactly when no entry has the key; otherwise it returns an entry with that key, and no later entry has it |
| LastWins.Index | src/pages/Admin/TaskAssignmentMailbox.jsx:23-26 | the id-keyed object built by the forEach maps each key to the last entry carrying it, and lacks keys no entry carries |
| LastWins.IndexKeys | src/pages/Admin/ManageUsers.jsx:25-28 | a key is in the lookup object iff some entry of the list has that id |
| TaskData.BuildTabs | src/pages/Admin/ManageTasks.jsx:64-71 | there are always four tabs, labelled All, Pending, In Progress and Completed, in that order. A missing summary field gives 0 for All, In Progress and Completed. Pending passes its field through and may stay undefined |
| TaskData.ShowTabsIffPositiveTotal | src/pages/Admin/ManageTasks.jsx:143 | the tab strip is shown iff the summary reports a positive total `all` |
| SortOption.ParseSort | src/pages/Admin/ManageTasks.jsx:34-38 | the sort field and order contain no `_`; the order is absent exactly when the option has no `_`, and then the field is the whole option; otherwise the option begins with field, `_`, order |
| SortOption.ParseSortOfPair | src/pages/User/MyTask.jsx:34-38 | a `field_order` option with `_`-free parts parses back to that field and that order |
| SortOption.SidebarOptionsParse | src/components/SideMenuSortTask.jsx:152-155 | each of the four sort choices parses to its field (createdAt or dueDate) and direction (asc or desc) |
| TaskOrder.CompareIsRankDifference | src/pages/Admin/ManageTasks.jsx:50-59 | the comparator is the difference of a rank: the date key for `asc`, the negated date key for any other order |
| TaskOrder.InsertionSortSorted | src/pages/User/MyTask.jsx:48-61 | the stable sort orders tasks by rank and keeps tasks of equal rank in their response order |
| TaskOrder.SortTasks | src/pages/Admin/ManageTasks.jsx:47-60 | the sorted list is a permutation of the response. Its key is `dueDate` when the field is dueDate and `createdAt` otherwise. The key is non-decreasing for `asc` and non-increasing for any other order, and tasks with equal keys keep their response order |
| TaskQuery.AdminParams | src/pages/Admin/ManageTasks.jsx:30-41 | `status` is sent iff the status is truthy and not "All"; `sortBy` iff the sort is non-empty; `sortOrder` iff the sort contains `_`; `assignedTo` iff the user id is truthy; each value is the input or its parsed part, and no other key is sent |
| TaskQuery.EffectiveStatus | src/pages/User/MyTask.jsx:89 | the status a fetch uses is the sidebar's selected status when truthy, and the tab status otherwise; it is empty only when the tab status is |
| TaskQuery.UserParams | src/pages/User/MyTask.jsx:29-41 | the same status and sort rules as the admin query; `search` is sent iff the term is non-empty, verbatim; `assignedTo` is never sent |
| TaskQuery.UserParamsWithoutSearchAreAdminParams | src/pages/User/MyTask.jsx:29-38 | with an empty search the user query equals the admin query for no selected user |
| TaskQuery.SortParamsRoundTrip | src/pages/Admin/ManageTasks.jsx:34-38 | composing `field_order` from `_`-free parts and sending it yields `sortBy` = field and `sortOrder` = order |
| TaskQuery.BlankSearchIsSent | src/pages/User/MyTask.jsx:39-41 | every non-empty search term made only of whitespace is truthy and is forwarded untrimmed |
| ManageTasksPage.SyncFilterStatus | src/pages/Admin/ManageTasks.jsx:80-84 | after the status effect a selected status is mirrored in the tab status; with no selected status the page is unchanged; nothing but the tab status changes |
| ManageTasksPage.SyncedEffectiveIsFilterStatus | src/pages/Admin/ManageTasks.jsx:86-88 | once the effect has run, the status the fetch uses is the tab status |
| ManageTasksPage.Query | src/pages/Admin/ManageTasks.jsx:30-41 | the fetch sends the effective status iff it is non-empty and not "All"; `assignedTo` iff the selected user is truthy, with that id; `sortBy` iff the sort is non-empty, with the parsed field; `sortOrder` iff the sort contains `_`, with the parsed direction; no key outside the admin set |
| ManageTasksPage.SelectUser | src/pages/Admin/ManageTasks.jsx:123 | only the selected user changes; the request then names that user as assignee iff the id is truthy |
| ManageTasksPage.SelectSort | src/pages/Admin/ManageTasks.jsx:125 | only the sort option changes; the request sends `sortBy` iff the option is non-empty and `sortOrder` iff it contains `_` |
| ManageTasksPage.ApplyNotice | src/pages/Admin/ManageTasks.jsx:123-128 | each sidebar notice reaches the setter it is wired to: a user notice sets only the user, a status notice the selected status (and the tab status, via the effect), a sort notice only the sort. Tasks and tabs are untouched and the synced invariant is kept |
| ManageTasksPage.ApplyNotices | src/pages/Admin/ManageTasks.jsx:123-128 | a run of notices keeps the tasks, the tabs and the synced invariant; without a user notice the selected user is unchanged |
| ManageTasksPage.ApplyNoticesAppend | src/pages/Admin/ManageTasks.jsx:123-128 | applying two runs of notices one after the other equals applying their concatenation |
| ManageTasksPage.ResetNoticesEffect | src/pages/Admin/ManageTasks.jsx:123-128 | the three reset notices, in the sidebar's order, clear the user and the status and restore the default sort, and change nothing else |
| ManageTasksPage.TabClick | src/pages/Admin/ManageTasks.jsx:148-155 | clicking "All" resets the tab status to All and clears both sidebar selections. Any other tab becomes both the tab status and the selected status, and the user is kept. Tasks, tabs and sort are untouched |
| ManageTasksPage.TabClickQuery | src/pages/Admin/ManageTasks.jsx:114-118 | after a tab click the request filters by that tab's status; after "All" it sends neither a status nor an assignee |
| ManageTasksPage.SelectStatus | src/pages/Admin/ManageTasks.jsx:80-84 | a sidebar status becomes the selected status and, when present, the tab status; clearing it leaves the tab status as it was |
| ManageTasksPage.ClearingStatusKeepsFilter | src/pages/Admin/ManageTasks.jsx:80-88 | selecting a status and then clearing it leaves no selected status, yet the request still filters by that status |
| ManageTasksPage.ApplyFetch | src/pages/Admin/ManageTasks.jsx:47-74 | a response replaces the tasks with a stable sort by the current option and rebuilds the tabs; a failure leaves the page unchanged; the selections never change |
| ManageTasksPage.TransitionsKeepSynced | src/pages/Admin/ManageTasks.jsx:80-84 | every page transition preserves the invariant that a selected status equals the tab status |
| ManageTasksPage.SidebarUserClickMirrored | src/pages/Admin/ManageTasks.jsx:123-126 | after a sidebar user-row click, the page's selected user equals the sidebar's |
| ManageTasksPage.SidebarResetKeepsTabStatus | src/pages/Admin/ManageTasks.jsx:123-128 | "Reset All Filters" clears the page's user, status and sort, but the request still filters by the last tab status |
| MyTaskPage.Query | src/pages/User/MyTask.jsx:88-90 | the request never names an assignee. It sends `selectedStatus \|\| filterStatus` iff that is non-empty and not "All", with that value; `sortBy` iff the sort is non-empty, with the parsed field; `sortOrder` iff the sort contains `_`, with the parsed direction; `search` iff the term is non-empty, verbatim |
| MyTaskPage.TabClick | src/pages/User/MyTask.jsx:104-109 | a tab click sets only the tab status; without a selected status the request then filters by that tab unless it is empty or "All" |
| MyTaskPage.SelectStatus | src/pages/User/MyTask.jsx:95 | only the selected status changes; a truthy one is then sent unless it is "All" |
| MyTaskPage.SelectSort | src/pages/User/MyTask.jsx:96 | only the sort option changes; the request sends `sortBy` iff the option is non-empty and `sortOrder` iff it contains `_` |
| MyTaskPage.SetSearch | src/pages/User/MyTask.jsx:97 | only the search term changes; the request sends `search` iff the term is non-empty, verbatim |
| MyTaskPage.TabClickShadowedBySidebar | src/pages/User/MyTask.jsx:104-109 | while a sidebar status is selected, clicking a tab does not change the request |
| MyTaskPage.SelectThenClearRestoresQuery | src/pages/User/MyTask.jsx:88-95 | on My Tasks, selecting a sidebar status and clearing it again restores the original request |
| MyTaskPage.ApplyFetch | src/pages/User/MyTask.jsx:47-78 | a response replaces the tasks with a stable sort by the current option and rebuilds the tabs; a failure empties both tasks and tabs; filters and search are untouched |
| MyTaskPage.FetchShowsTabs | src/pages/User/MyTask.jsx:74-78 | after a failed fetch the tab strip is hidden; after a response it is shown iff the reported total is positive |
| GroupedTasks.BucketCount | src/components/SideMenuSortTask.jsx:208 | a status's badge is 0 when the user has no bucket for it, and never exceeds the user's total |
| GroupedTasks.TotalSplits | src/components/SideMenuSortTask.jsx:188-191 | with distinct bucket labels, the total splits into one status's count plus the total of the rest |
| GroupedTasks.TotalIsSumOfStatuses | src/components/SideMenuSortTask.jsx:188-191 | when the buckets are exactly Pending, In Progress and Completed, the total badge is the sum of the three status badges |
| SideMenu.SortFromProp | src/components/SideMenuSortTask.jsx:27-29 | a truthy sort prop is used as is; otherwise the sort is `createdAt_desc` |
| SideMenu.Initial | src/components/SideMenuSortTask.jsx:23-29 | on mount the selections come from the props, the sort is the truthy sort prop or `createdAt_desc`, and no rows are expanded and no users loaded |
| SideMenu.UserPropChanged | src/components/SideMenuSortTask.jsx:39-41 | a new user prop overrides the local user selection and nothing else |
| SideMenu.StatusPropChanged | src/components/SideMenuSortTask.jsx:43-45 | a new status prop overrides the local status selection and nothing else |
| SideMenu.SortPropChanged | src/components/SideMenuSortTask.jsx:47-49 | a new sort prop sets the sort to the truthy prop or `createdAt_desc`, and nothing else |
| SideMenu.PropEffectsMatchMount | src/components/SideMenuSortTask.jsx:23-49 | after the three prop effects run, the selections and sort equal those of a fresh mount with the same props |
| SideMenu.Toggle | src/components/SideMenuSortTask.jsx:84 | picking the selected value clears the selection; picking anything else selects it |
| SideMenu.ToggleTwice | src/components/SideMenuSortTask.jsx:83-87 | picking the same value twice leaves it selected iff it was selected before |
| SideMenu.SelectUser | src/components/SideMenuSortTask.jsx:83-87 | only the user selection changes, by toggling; the parent is told the new value iff it passed `onUserSelect` |
| SideMenu.SelectStatus | src/components/SideMenuSortTask.jsx:89-93 | only the status selection changes, by toggling; the parent is told the new value iff it passed `onStatusSelect` |
| SideMenu.ChangeSort | src/components/SideMenuSortTask.jsx:95-99 | only the sort changes; the parent is told iff it passed `onSortChange` |
| SideMenu.ResetFilters | src/components/SideMenuSortTask.jsx:101-108 | both selections are cleared and the sort is restored to the default; expanded rows and users are kept; the parent gets the user, status and sort reset notices iff it passed the matching callback, in that order, and no other notice |
| SideMenu.ResetNoticesInOrder | src/components/SideMenuSortTask.jsx:101-108 | with all three callbacks passed, the notices are exactly user cleared, status cleared, default sort, in that order |
| SideMenu.ResetIdempotent | src/components/SideMenuSortTask.jsx:101-108 | resetting twice equals resetting once, and the outcome does not depend on the prior selections or sort |
| SideMenu.Without | src/components/SideMenuSortTask.jsx:78 | filtering out an id removes exactly that id and keeps every other id |
| SideMenu.ToggleExpand | src/components/SideMenuSortTask.jsx:75-81 | the id becomes expanded iff it was not; a new id is appended at the end; other ids keep their membership |
| SideMenu.ToggleExpandKeepsOthers | src/components/SideMenuSortTask.jsx:76-80 | other ids keep their relative order through a toggle |
| SideMenu.ToggleExpandTwice | src/components/SideMenuSortTask.jsx:75-81 | expanding and then collapsing a row restores the expanded list |
| SideMenu.ToggleExpandKeepsDistinct | src/components/SideMenuSortTask.jsx:75-81 | toggling keeps the expanded list free of duplicates |
| SideMenu.ClickUserRow | src/components/SideMenuSortTask.jsx:171-174 | a row click toggles that row's expansion and the user selection; the status, sort and users are kept; the only notice is the new user selection, sent iff `onUserSelect` is passed |
| SideMenu.ClickUserRowTwice | src/components/SideMenuSortTask.jsx:171-174 | two clicks on a collapsed, unselected row restore the sidebar with no user selected |
| SideMenu.LoadUsers | src/components/SideMenuSortTask.jsx:51-69 | a body with a `users` array replaces the list; a failure or any other body keeps it |
| SideMenu.UserBadge | src/components/SideMenuSortTask.jsx:188-191 | the user's total badge is the number of task ids over all buckets, and at least each status's count |
| SideMenu.StatusBadge | src/components/SideMenuSortTask.jsx:208 | a status badge is `tasks[status]?.length \|\| 0`, the size of that status's bucket; it is 0 for a missing bucket and never exceeds the user's total badge |
| ManageUsersPage.Merge | src/pages/Admin/ManageUsers.jsx:25-41 | one row per roster user, in roster order, carrying that user; each count is the length of the same-named bucket in the last grouped entry with the user's id, or 0 |
| ManageUsersPage.UngroupedUserCountsZero | src/pages/Admin/ManageUsers.jsx:32-40 | a user absent from the grouped response gets all three counts 0 |
| ManageUsersPage.MergedCountsMatchSidebarTotal | src/pages/Admin/ManageUsers.jsx:35-39 | when a user's buckets are exactly the three statuses, the three merged counts add up to the sidebar's total badge for that user |
| ManageUsersPage.LoadUsers | src/pages/Admin/ManageUsers.jsx:16-50 | when both responses arrive and the grouped one has `users`, the list becomes the merge; otherwise it is kept |
| ManageUsersPage.EditClick | src/pages/Admin/ManageUsers.jsx:73-78 | editing a user fills each input from the stored field, or the empty string when that field is missing |
| ManageUsersPage.CancelEdit | src/pages/Admin/ManageUsers.jsx:186 | Cancel ends editing and keeps the inputs, so a save after it sends nothing |
| ManageUsersPage.PlannedUpdates | src/pages/Admin/ManageUsers.jsx:92-113 | nothing is sent when no user is being edited. Otherwise a field is sent iff its input differs from the stored value (a missing stored value differs from every input). Each update carries its input, and updates go in the order position, photo, role |
| ManageUsersPage.UntouchedSaveResendsAbsentFields | src/pages/Admin/ManageUsers.jsx:75-77 | saving without edits sends exactly the fields the user did not have stored, each as the empty string |
| ManageUsersPage.Save | src/pages/Admin/ManageUsers.jsx:92-121 | a save without an edited user does nothing; the planned updates are sent in order up to and including the first failure, which keeps the form; when all succeed, editing ends and the list is refetched |
| ManageUsersPage.SaveAttemptsPlannedPrefix | src/pages/Admin/ManageUsers.jsx:92-121 | the updates a save attempts are a prefix of the planned ones; the list is refetched iff a user was being edited and no planned update failed, and then all were attempted and editing ended; otherwise the form is kept |
| Requests.DisplayName | src/components/TaskAssignmentMailbox.jsx:78 | the label is the populated name when that name is truthy, and the fallback otherwise |
| UserMailbox.LoadRequests | src/components/TaskAssignmentMailbox.jsx:13-24 | a response replaces the requests with its list, or with none when the list is missing; a failure keeps them |
| UserMailbox.ApproveClick | src/components/TaskAssignmentMailbox.jsx:83 | approving issues an approve call for that request with a null reason, and changes no state yet |
| UserMailbox.RejectClick | src/components/TaskAssignmentMailbox.jsx:43-46 | rejecting opens the modal for that request and keeps the typed reason and the requests |
| UserMailbox.RejectSubmit | src/components/TaskAssignmentMailbox.jsx:48-54 | no call is made iff the reason is blank after trimming; otherwise a reject call for the selected request carries the untrimmed reason |
| UserMailbox.EditReason | src/components/TaskAssignmentMailbox.jsx:107 | typing replaces the reason and nothing else; a submit then sends nothing iff the new reason is blank |
| UserMailbox.Cancel | src/components/TaskAssignmentMailbox.jsx:112-116 | cancelling closes the modal, clears the reason and the selected request, and keeps the requests |
| UserMailbox.RespondFinished | src/components/TaskAssignmentMailbox.jsx:32-40 | a successful response resets the modal as Cancel does and asks for a refetch; a failure changes nothing |
| UserMailbox.RejectFlow | src/components/TaskAssignmentMailbox.jsx:43-54 | Reject, typing a non-blank reason, then Submit sends exactly that request's reject call with that reason |
| UserMailbox.BlankReasonNeverSent | src/components/TaskAssignmentMailbox.jsx:48-52 | with a blank reason, Submit sends nothing and leaves the modal open |
| UserMailbox.DraftKeptAcrossRequests | src/components/TaskAssignmentMailbox.jsx:43-46 | a reason typed for one request is still in the modal when Reject is clicked on another |
| UserMailbox.LabelsFallBack | src/components/TaskAssignmentMailbox.jsx:75-78 | a truthy populated title or admin name is shown; an unpopulated reference, or a populated one with a missing or empty title or name, shows "Unknown Task" / "Unknown Admin" |
| UserMailbox.TaskLabel | src/components/TaskAssignmentMailbox.jsx:75 | the task cell is never empty: a truthy populated title, otherwise "Unknown Task" |
| UserMailbox.AdminLabel | src/components/TaskAssignmentMailbox.jsx:78 | the requester cell is never empty: a truthy populated name, otherwise "Unknown Admin" |
| AdminMailbox.Unjoined | src/pages/Admin/TaskAssignmentMailbox.jsx:16 | the first render lists every request, in order, without task details |
| AdminMailbox.JoinKey | src/pages/Admin/TaskAssignmentMailbox.jsx:31 | the lookup key is the bare id itself; a populated object gives "[object Object]", a missing reference "undefined", and null "null" |
| AdminMailbox.JoinKeyInjectiveOnIds | src/pages/Admin/TaskAssignmentMailbox.jsx:31 | two bare ids give the same key iff they are the same id |
| AdminMailbox.JoinTasks | src/pages/Admin/TaskAssignmentMailbox.jsx:29-32 | one row per request, in order; the details are the last listed task whose id equals the request's task reference coerced to a key |
| AdminMailbox.JoinFindsListedTask | src/pages/Admin/TaskAssignmentMailbox.jsx:23-31 | a request whose bare task id is listed gets a task with that id as its details |
| AdminMailbox.PopulatedReferenceDoesNotJoin | src/pages/Admin/TaskAssignmentMailbox.jsx:31 | a populated task reference never matches an ordinary task id, so it gets null details |
| AdminMailbox.Fetch | src/pages/Admin/TaskAssignmentMailbox.jsx:11-41 | a failed request fetch keeps the rows; a failed task fetch leaves the new requests without details; otherwise the requests are joined with the tasks |
| AdminMailbox.FetchKeepsRequests | src/pages/Admin/TaskAssignmentMailbox.jsx:16-34 | after the requests arrive, the rows list exactly those requests, in order, whatever the task fetch does |
| AdminMailbox.TitleLabel | src/pages/Admin/TaskAssignmentMailbox.jsx:60 | a populated title wins, then the joined task's title, then "Unknown Task" |
| AdminMailbox.PeopleLabelsFallBack | src/pages/Admin/TaskAssignmentMailbox.jsx:62-66 | the assignee and requester show a populated, non-empty name; a bare id or a missing reference shows "Unknown User" / "Unknown Admin" |
| AdminMailbox.AssigneeLabel | src/pages/Admin/TaskAssignmentMailbox.jsx:63 | the assignee cell is never empty: a truthy populated name, otherwise "Unknown User" |
| AdminMailbox.RequesterLabel | src/pages/Admin/TaskAssignmentMailbox.jsx:66 | the requester cell is never empty: a truthy populated name, otherwise "Unknown Admin" |
| AdminMailbox.StatusLabel | src/pages/Admin/TaskAssignmentMailbox.jsx:68 | a truthy status is shown as is; otherwise "Pending" |
| AdminMailbox.ShownReason | src/pages/Admin/TaskAssignmentMailbox.jsx:69-73 | the reason is shown iff the status is exactly "Rejected" and the reason is truthy |
| AdminMailbox.ReasonOnlyWhenRejected | src/pages/Admin/TaskAssignmentMailbox.jsx:68-73 | a shown reason always sits under the status label "Rejected"; a request without a status never shows one |
| UserCard.ProfileImageSrc | src/components/Cards/UserCard.jsx:4-7 | an image is shown iff the URL is present and not blank after trimming, and then the untrimmed URL is used |
| UserCard.Initial | src/components/Cards/UserCard.jsx:21 | the placeholder is one character: "?" for a missing or empty name, otherwise the name's first letter upper-cased |
| UserCard.TagColor | src/components/Cards/UserCard.jsx:56-67 | In Progress is cyan, Completed is indigo, and every other status is violet, each iff |
| UserCard.Stats | src/components/Cards/UserCard.jsx:33-47 | three tiles labelled Pending, In Progress and Completed, coloured by their label; a missing count shows 0 |
| UserCard.MergedRowStats | src/components/Cards/UserCard.jsx:35-45 | a merged Manage Users row shows its three counts on the matching tiles |
| Routing.RootDecision | src/App.jsx:91-101 | while auth is loading the outlet renders; without a user, redirect to /login; an admin goes to /admin/dashboard and every other role to /user/dashboard |
| Routing.GuardOf | src/App.jsx:33-66 | the guard lookup finds nothing iff no route has the path, and otherwise returns the guard of a route with that path |
| Routing.RouteGuards | src/App.jsx:34-65 | every route is either public (/login, /signup, /) or guarded to the admin role only |
| Routing.GuardTable | src/App.jsx:35-62 | /login and /signup are unguarded; every admin and user path is guarded to admin only |
| Routing.RedirectTargetsDeclared | src/App.jsx:96-100 | every place Root redirects to is a declared route |
| Routing.NonAdminSentToAdminOnlyRoute | src/App.jsx:51-62 | Root sends a signed-in non-admin to /user/dashboard, whose guard admits only admins |

## Left out

- HTTP calls, toasts, console logging, loading flags and spinners are left out. Responses come in as `Fetched` values, and request paths and payload encoding are not modelled.
- Navigation to task details and task creation is left out. It only builds a URL from an id.
- Report downloads (blob, object URL and a generated link) are left out. They are browser I/O.
- React effect scheduling is left out. The model applies each handler and the effect it triggers as one step. Overlapping fetches and out-of-order responses are not modelled.
- Dates: `createdAt` and `dueDate` are integers (milliseconds). `new Date` parsing and NaN comparisons of invalid dates are not modelled.
- UserCard.Initial: upper-cases ASCII letters only. Full Unicode `toUpperCase`, and strings whose first code unit is half of a surrogate pair, are not modelled.
- Request state rules are left out. Which requests may be approved or rejected, and the terminal states, are enforced by the server. The client sends whatever is clicked.
- Duplicate labels in a user's `tasks` object are not modelled. A parsed JSON object has each key once, so the bucket sequence is meant to satisfy `GroupedTasks.UniqueLabels`, which the lemmas that combine buckets require. On a sequence with a repeated label, `BucketCount` reads the first bucket and `TotalCount` adds them all.
- Grouping tasks by user and status is done by the server. The client consumes the grouped payload as given.
- JavaScript prototype keys (`__proto__`, `constructor`) used as ids in the lookup objects are not modelled. Every key is treated as an own key.
- Non-array bucket values and non-string ids in response bodies are not modelled.
- SideMenu.UserBadge: requires the `tasks` object. The source calls `Object.values(user.tasks)`, which throws during render when `tasks` is missing.
- SideMenu.StatusBadge: has the same precondition, since the source reads `user.tasks[status]`.
- The sidebar's collapse button only toggles styling and is not modelled.
- The sidebar fetches its user list only when its `isAdmin` prop is set (src/components/SideMenuSortTask.jsx:33-37). The model takes the fetch result as given and leaves the prop out.
- The page layout (DashboardLayout) and the `PrivateRoute` component are not modelled. Their role check is not part of this model. The route table records only the `allowedRoles` each route declares.
- The text-input handlers on Manage Users (position, photo, role) are plain setters. A form with given inputs is built directly.
- Task fields other than id, title, status, createdAt and dueDate only feed the card rendering and are not modelled.
- `Array.prototype.sort` is modelled as a stable insertion sort. Any stable sort with the same comparator gives the same result, which is what the `SortTasks` contract pins down.

=== FILE: admin_mailbox.dfy ===
/** The admin's mailbox: every assignment request, joined with the task it refers to. */
module AdminMailbox {
  import opened Wrappers
  import opened Js
  import opened LastWins
  import opened TaskData
  import opened Requests

  /** Whether the task join ran, and what it found: `taskDetails` is absent until it does. */
  datatype Details = NotJoined | Joined(task: Option<Task>)

  datatype Row = Row(request: Request, taskDetails: Details)

  function TaskKey(t: Task): string { t.id }

  /** The property name `taskMap[req.taskId]` reads: JavaScript converts the key with `String(...)`. */
  function JoinKey(t: TaskRef): (k: string)
    ensures t.TaskId? ==> k == t.id
    ensures t.PopulatedTask? ==> k == "[object Object]"
    ensures t.NoTask? ==> k == "undefined"
    ensures t.NullTask? ==> k == "null"
  {
    match t
    case TaskId(id) => id
    case PopulatedTask(_, _) => "[object Object]"
    case NoTask => "undefined"
    case NullTask => "null"
  }

  /** Two bare ids share a join key exactly when they are equal, so a bare id only ever
      joins with its own task. */
  lemma JoinKeyInjectiveOnIds(a: TaskRef, b: TaskRef)
    requires a.TaskId? && b.TaskId?
    ensures JoinKey(a) == JoinKey(b) <==> a == b
  {
  }

  /** The request list as first shown, before the join. */
  function Unjoined(requests: seq<Request>): (rows: seq<Row>)
    ensures |rows| == |requests|
    ensures forall i | 0 <= i < |rows| :: rows[i] == Row(requests[i], NotJoined)
  {
    seq(|requests|, i requires 0 <= i < |requests| => Row(requests[i], NotJoined))
  }

  /** The join: each request keeps its position and fields and gains the last task whose id is its
      join key, or null. */
  function JoinTasks(requests: seq<Request>, tasks: seq<Task>): (rows: seq<Row>)
    ensures |rows| == |requests|
    ensures forall i | 0 <= i < |rows| ::
      rows[i] == Row(requests[i], Joined(Find(tasks, TaskKey, JoinKey(requests[i].taskId))))
  {
    var taskMap := Index(tasks, TaskKey);
    assert forall k :: Find(tasks, TaskKey, k) == if k in taskMap then Some(taskMap[k]) else None;
    seq(|requests|, i requires 0 <= i < |requests| =>
      var k := JoinKey(requests[i].taskId);
      Row(requests[i], Joined(if k in taskMap then Some(taskMap[k]) else None)))
  }

  /** A request naming a task by id finds that task whenever the task list holds it. */
  lemma {:induction false} JoinFindsListedTask(requests: seq<Request>, tasks: seq<Task>, i: nat, j: nat)
    requires i < |requests| && j < |tasks|
    requires requests[i].taskId == TaskId(tasks[j].id)
    ensures var d := JoinTasks(requests, tasks)[i].taskDetails;
      d.Joined? && d.task.Some? && d.task.value.id == tasks[j].id
  {
    var f := Find(tasks, TaskKey, tasks[j].id);
    assert TaskKey(tasks[j]) == tasks[j].id;
    assert f.Some?;
  }

  /** A populated task reference never joins unless some task's id is literally "[object Object]". */
  lemma PopulatedReferenceDoesNotJoin(requests: seq<Request>, tasks: seq<Task>, i: nat)
    requires i < |requests| && requests[i].taskId.PopulatedTask?
    requires forall j | 0 <= j < |tasks| :: tasks[j].id != "[object Object]"
    ensures JoinTasks(requests, tasks)[i].taskDetails == Joined(None)
  {
  }

  /** `fetchRequests`: the requests are shown as soon as they arrive; the join replaces them only if the
      task list also arrives. A failed request fetch keeps the previous rows. */
  function Fetch(rows: seq<Row>, requestsResponse: Fetched<RequestListBody>, tasksResponse: Fetched<TaskListBody>): (r: seq<Row>)
    ensures requestsResponse.FetchFailed? ==> r == rows
    ensures requestsResponse.Loaded? && tasksResponse.FetchFailed? ==>
      r == Unjoined(requestsResponse.body.requests.GetOr([]))
    ensures requestsResponse.Loaded? && tasksResponse.Loaded? ==>
      r == JoinTasks(requestsResponse.body.requests.GetOr([]), ResponseTasks(tasksResponse.body))
  {
    match requestsResponse
    case FetchFailed => rows
    case Loaded(body) =>
      var requests := body.requests.GetOr([]);
      match tasksResponse
      case FetchFailed => Unjoined(requests)
      case Loaded(tbody) => JoinTasks(requests, ResponseTasks(tbody))
  }

  /** Either way, the shown rows are the fetched requests in order with their fields intact. */
  lemma FetchKeepsRequests(rows: seq<Row>, body: RequestListBody, tasksResponse: Fetched<TaskListBody>)
    ensures var r := Fetch(rows, Loaded(body), tasksResponse);
      && |r| == |body.requests.GetOr([])|
      && forall i | 0 <= i < |r| :: r[i].request == body.requests.GetOr([])[i]
  {
  }

  /** `taskDetails?.title`: the joined task's title (possibly empty), or nothing. */
  function DetailsTitle(d: Details): Option<string> {
    if d.Joined? && d.task.Some? then Some(d.task.value.title) else None
  }

  /** `req.taskId?.title || req.taskDetails?.title || "Unknown Task"`. */
  function TitleLabel(row: Row): (s: string)
    ensures Truthy(TitleOf(row.request.taskId)) ==> s == TitleOf(row.request.taskId).value
    ensures !Truthy(TitleOf(row.request.taskId)) && Truthy(DetailsTitle(row.taskDetails)) ==>
      s == DetailsTitle(row.taskDetails).value
    ensures s == "Unknown Task" || Truthy(TitleOf(row.request.taskId)) || Truthy(DetailsTitle(row.taskDetails))
  {
    OrElse(TitleOf(row.request.taskId), OrElse(DetailsTitle(row.taskDetails), "Unknown Task"))
  }

  /** `req.assignedToUserId?.name || "Unknown User"` and `req.assignedByAdminId?.name || "Unknown Admin"`. */
  function AssigneeLabel(row: Row): (s: string)
    ensures s != ""
    ensures Truthy(NameOf(row.request.assignedToUserId)) ==> s == NameOf(row.request.assignedToUserId).value
    ensures !Truthy(NameOf(row.request.assignedToUserId)) ==> s == "Unknown User"
  {
    DisplayName(row.request.assignedToUserId, "Unknown User")
  }

  function RequesterLabel(row: Row): (s: string)
    ensures s != ""
    ensures Truthy(NameOf(row.request.assignedByAdminId)) ==> s == NameOf(row.request.assignedByAdminId).value
    ensures !Truthy(NameOf(row.request.assignedByAdminId)) ==> s == "Unknown Admin"
  {
    DisplayName(row.request.assignedByAdminId, "Unknown Admin")
  }

  /** A populated, non-empty name is shown; a bare id or a missing reference shows the fallback. */
  lemma PeopleLabelsFallBack(row: Row)
    ensures Truthy(NameOf(row.request.assignedToUserId)) ==>
      AssigneeLabel(row) == NameOf(row.request.assignedToUserId).value
    ensures !row.request.assignedToUserId.PopulatedUser? ==> AssigneeLabel(row) == "Unknown User"
    ensures Truthy(NameOf(row.request.assignedByAdminId)) ==>
      RequesterLabel(row) == NameOf(row.request.assignedByAdminId).value
    ensures !row.request.assignedByAdminId.PopulatedUser? ==> RequesterLabel(row) == "Unknown Admin"
  {
  }

  /** `req.status || "Pending"`. */
  function StatusLabel(row: Row): (s: string)
    ensures s != ""
    ensures Truthy(row.request.status) ==> s == row.request.status.value
    ensures !Truthy(row.request.status) ==> s == "Pending"
  {
    OrElse(row.request.status, "Pending")
  }

  /** The rejection line: shown iff the status is exactly "Rejected" and the reason is non-empty. */
  function ShownReason(row: Row): (reason: Option<string>)
    ensures reason.Some? <==> row.request.status == Some("Rejected") && Truthy(row.request.rejectionReason)
    ensures reason.Some? ==> reason == row.request.rejectionReason
  {
    if row.request.status == Some("Rejected") && Truthy(row.request.rejectionReason) then row.request.rejectionReason
    else None
  }

  /** A shown status other than "Rejected" never shows a reason, and neither does a status left to default. */
  lemma ReasonOnlyWhenRejected(row: Row)
    ensures ShownReason(row).Some? ==> StatusLabel(row) == "Rejected"
    ensures !Truthy(row.request.status) ==> ShownReason(row).None?
  {
  }
}

=== FILE: grouped_tasks.dfy ===
/** The grouped-by-status response: per user, an object from status label to that user's tasks. */
module GroupedTasks {
  import opened Wrappers
  import opened Js

  /** One entry of a user's `tasks` object: a label and its array of task ids, possibly null.
      A parsed JSON object holds each label at most once, so a `tasks` sequence is meant to
      satisfy `UniqueLabels`; the lemmas that combine several buckets require it. */
  datatype Bucket = Bucket(status: string, taskIds: Option<seq<string>>)

  /** One element of the response's `users` array. */
  datatype GroupedUser = GroupedUser(id: string, name: string, profileImageUrl: Option<string>, tasks: Option<seq<Bucket>>)

  function GroupedId(g: GroupedUser): string { g.id }

  /** Whether the object has an entry labelled `status`. */
  predicate HasLabel(b: seq<Bucket>, status: string) {
    |b| > 0 && (b[0].status == status || HasLabel(b[1..], status))
  }

  /** An object has each key once. */
  predicate UniqueLabels(b: seq<Bucket>) {
    |b| == 0 || (!HasLabel(b[1..], b[0].status) && UniqueLabels(b[1..]))
  }

  /** `tasks[status]?.length || 0`: the size of the bucket with that label, 0 when absent or null. */
  function BucketCount(b: seq<Bucket>, status: string): (n: nat)
    ensures n <= TotalCount(b)
    ensures !HasLabel(b, status) ==> n == 0
  {
    if |b| == 0 then 0
    else if b[0].status == status then LengthOrZero(b[0].taskIds)
    else BucketCount(b[1..], status)
  }

  /** `Object.values(tasks).reduce((sum, t) => sum + (t?.length || 0), 0)`. */
  function TotalCount(b: seq<Bucket>): nat {
    if |b| == 0 then 0 else LengthOrZero(b[0].taskIds) + TotalCount(b[1..])
  }

  /** The entries other than the ones labelled `status`. */
  function Drop(b: seq<Bucket>, status: string): (r: seq<Bucket>)
    ensures forall t :: HasLabel(r, t) <==> HasLabel(b, t) && t != status
    ensures forall t | t != status :: BucketCount(r, t) == BucketCount(b, t)
    ensures UniqueLabels(b) ==> UniqueLabels(r)
  {
    if |b| == 0 then []
    else if b[0].status == status then Drop(b[1..], status)
    else
      var d := Drop(b[1..], status);
      assert ([b[0]] + d)[1..] == d;
      [b[0]] + d
  }

  /** In an object, the total splits into one bucket and the rest. */
  lemma {:induction false} TotalSplits(b: seq<Bucket>, status: string)
    requires UniqueLabels(b)
    ensures TotalCount(b) == BucketCount(b, status) + TotalCount(Drop(b, status))
    decreases |b|
  {
    if |b| > 0 {
      TotalSplits(b[1..], status);
      var d := Drop(b[1..], status);
      if b[0].status == status {
        assert BucketCount(b[1..], status) == 0;
      } else {
        assert ([b[0]] + d)[1..] == d;
      }
    }
  }

  /** When the object holds exactly the three status buckets, the total badge is
      the sum of the three per-status badges. */
  lemma {:induction false} TotalIsSumOfStatuses(b: seq<Bucket>)
    requires UniqueLabels(b)
    requires forall s :: HasLabel(b, s) <==> s in {"Pending", "In Progress", "Completed"}
    ensures TotalCount(b)
      == BucketCount(b, "Pending") + BucketCount(b, "In Progress") + BucketCount(b, "Completed")
  {
    TotalSplits(b, "Pending");
    var b1 := Drop(b, "Pending");
    TotalSplits(b1, "In Progress");
    var b2 := Drop(b1, "In Progress");
    TotalSplits(b2, "Completed");
    var b3 := Drop(b2, "Completed");
    if |b3| > 0 {
      assert HasLabel(b3, b3[0].status);
    }
  }
}

=== FILE: js.dfy ===
/** The JavaScript value conventions the pages rely on: truthiness and `||` defaults. */
module Js {
  import opened Wrappers

  /** An optional string is truthy iff it is present and non-empty. */
  predicate Truthy(o: Option<string>) {
    o.Some? && o.value != ""
  }

  /** `o || fallback` on an optional string. */
  function OrElse(o: Option<string>, fallback: string): string {
    if Truthy(o) then o.value else fallback
  }

  /** `o || 0` on an optional count: a present 0 and an absent value both give 0. */
  function OrZero(o: Option<int>): int {
    match o
    case Some(n) => n
    case None => 0
  }

  /** `xs?.length || 0` on an optional array. */
  function LengthOrZero<T>(xs: Option<seq<T>>): nat {
    match xs
    case Some(s) => |s|
    case None => 0
  }
}

=== FILE: last_wins.dfy ===
/** The lookup table a page builds with `forEach(x => table[key(x)] = x)`:
    every key that occurs is present, and a repeated key keeps the last element. */
module LastWins {
  import opened Wrappers

  /** Reference definition: the last element of `s` whose key is `k`, if any. */
  function Find<T>(s: seq<T>, key: T -> string, k: string): (r: Option<T>)
    ensures r.None? <==> forall i | 0 <= i < |s| :: key(s[i]) != k
    ensures r.Some? ==> exists i | 0 <= i < |s| ::
      s[i] == r.value && key(s[i]) == k && forall j | i < j < |s| :: key(s[j]) != k
  {
    if |s| == 0 then None
    else if key(s[|s| - 1]) == k then Some(s[|s| - 1])
    else
      var prefix := s[..|s| - 1];
      var r := Find(prefix, key, k);
      assert forall i | 0 <= i < |prefix| :: prefix[i] == s[i];
      assert r.Some? ==> exists i | 0 <= i < |s| ::
        s[i] == r.value && key(s[i]) == k && forall j | i < j < |s| :: key(s[j]) != k
      by {
        if r.Some? {
          var i :| 0 <= i < |prefix| && prefix[i] == r.value && key(prefix[i]) == k
            && forall j | i < j < |prefix| :: key(prefix[j]) != k;
          assert s[i] == r.value && key(s[i]) == k;
          assert forall j | i < j < |s| :: key(s[j]) != k;
        }
      }
      r
  }

  /** The table itself, built by one left-to-right pass with overwriting. */
  function Index<T>(s: seq<T>, key: T -> string): (table: map<string, T>)
    ensures forall k {:trigger Find(s, key, k)} ::
      Find(s, key, k) == if k in table then Some(table[k]) else None
  {
    if |s| == 0 then map[]
    else
      var prefix := s[..|s| - 1];
      var last := s[|s| - 1];
      var table := Index(prefix, key)[key(last) := last];
      assert forall k {:trigger Find(s, key, k)} :: k != key(last) ==> Find(s, key, k) == Find(prefix, key, k);
      table
  }

  /** Every key that occurs in `s` is a key of the table, and no other. */
  lemma IndexKeys<T>(s: seq<T>, key: T -> string, k: string)
    ensures k in Index(s, key) <==> exists i | 0 <= i < |s| :: key(s[i]) == k
  {
    assert Find(s, key, k) == if k in Index(s, key) then Some(Index(s, key)[k]) else None;
  }
}

=== FILE: manage_tasks.dfy ===
/** The admin Manage Tasks page: its filter state, the request it issues, and how a response updates it. */
module ManageTasksPage {
  import opened Wrappers
  import opened Js
  import opened TaskData
  import opened SortOption
  import opened TaskOrder
  import opened TaskQuery
  import SideMenu

  datatype Page = Page(
    allTasks: seq<Task>,
    tabs: seq<Tab>,
    filterStatus: string,
    selectedUserId: Option<string>,
    selectedStatus: Option<string>,
    sortOption: string)

  const Initial: Page := Page([], [], AllLabel, None, None, DefaultSortOption)

  /** The state the page keeps once its status effect has run:
      a selected status is mirrored in `filterStatus`. */
  ghost predicate Synced(p: Page) {
    p.selectedStatus.Some? ==> p.filterStatus == p.selectedStatus.value
  }

  /** The effect on `selectedStatus`: a non-null selection is copied into `filterStatus`. */
  function SyncFilterStatus(p: Page): (q: Page)
    ensures Synced(q)
    ensures p.selectedStatus.Some? ==> q.filterStatus == p.selectedStatus.value
    ensures q.selectedStatus.None? ==> q == p
    ensures q == p.(filterStatus := q.filterStatus)
  {
    match p.selectedStatus
    case Some(s) => p.(filterStatus := s)
    case None => p
  }

  /** The request the fetch effect issues for the current state. */
  function Query(p: Page): (params: Params)
    ensures var e := EffectiveStatus(p.selectedStatus, p.filterStatus);
      && ("status" in params <==> e != "" && e != AllLabel)
      && ("status" in params ==> params["status"] == e)
    ensures "assignedTo" in params <==> Truthy(p.selectedUserId)
    ensures "assignedTo" in params ==> params["assignedTo"] == p.selectedUserId.value
    ensures "sortBy" in params <==> p.sortOption != ""
    ensures "sortBy" in params ==> params["sortBy"] == ParseSort(p.sortOption).sortBy
    ensures "sortOrder" in params <==> '_' in p.sortOption
    ensures "sortOrder" in params ==> Some(params["sortOrder"]) == ParseSort(p.sortOption).sortOrder
    ensures params.Keys <= AdminKeys
  {
    AdminParams(p.selectedUserId, Some(EffectiveStatus(p.selectedStatus, p.filterStatus)), p.sortOption)
  }

  /** Once synced, the status the page filters on is always the tab's `filterStatus`. */
  lemma {:induction false} SyncedEffectiveIsFilterStatus(p: Page)
    requires Synced(p)
    ensures EffectiveStatus(p.selectedStatus, p.filterStatus) == p.filterStatus
  {
  }

  /** A click on a tab: "All" clears the sidebar's user and status, any other tab selects that status. */
  function TabClick(p: Page, tab: string): (q: Page)
    ensures tab == AllLabel ==>
      q.filterStatus == AllLabel && q.selectedStatus.None? && q.selectedUserId.None?
    ensures tab != AllLabel ==>
      q.filterStatus == tab && q.selectedStatus == Some(tab) && q.selectedUserId == p.selectedUserId
    ensures q.allTasks == p.allTasks && q.tabs == p.tabs && q.sortOption == p.sortOption
    ensures Synced(q)
  {
    if tab == AllLabel then
      p.(filterStatus := AllLabel, selectedStatus := None, selectedUserId := None)
    else
      p.(filterStatus := tab, selectedStatus := Some(tab))
  }

  /** After a tab click the request filters by that tab's status, except "All" which sends
      neither a status nor an assignee. */
  lemma TabClickQuery(p: Page, tab: string)
    requires tab in TabLabels
    ensures var params := Query(TabClick(p, tab));
      && ("status" in params <==> tab != AllLabel)
      && ("status" in params ==> params["status"] == tab)
      && (tab == AllLabel ==> "assignedTo" !in params)
  {
  }

  /** `onUserSelect`, wired to `setSelectedUserId`. */
  function SelectUser(p: Page, userId: Option<string>): (q: Page)
    ensures q.selectedUserId == userId
    ensures q.filterStatus == p.filterStatus && q.selectedStatus == p.selectedStatus && q.sortOption == p.sortOption
    ensures q.allTasks == p.allTasks && q.tabs == p.tabs
    ensures "assignedTo" in Query(q) <==> Truthy(userId)
    ensures "assignedTo" in Query(q) ==> Query(q)["assignedTo"] == userId.value
  {
    p.(selectedUserId := userId)
  }

  /** `onStatusSelect`, wired to `setSelectedStatus`, followed by the status effect. */
  function SelectStatus(p: Page, status: Option<string>): (q: Page)
    ensures q.selectedStatus == status
    ensures status.Some? ==> q.filterStatus == status.value
    ensures status.None? ==> q.filterStatus == p.filterStatus
    ensures q.selectedUserId == p.selectedUserId && q.sortOption == p.sortOption
    ensures q.allTasks == p.allTasks && q.tabs == p.tabs
  {
    SyncFilterStatus(p.(selectedStatus := status))
  }

  /** `onSortChange`, wired to `setSortOption`. */
  function SelectSort(p: Page, sort: string): (q: Page)
    ensures q.sortOption == sort
    ensures q.filterStatus == p.filterStatus && q.selectedStatus == p.selectedStatus
      && q.selectedUserId == p.selectedUserId
    ensures q.allTasks == p.allTasks && q.tabs == p.tabs
    ensures ("sortBy" in Query(q) <==> sort != "") && ("sortOrder" in Query(q) <==> '_' in sort)
  {
    p.(sortOption := sort)
  }

  /** Clearing the sidebar status keeps filtering by it: the tab status is not reset. */
  lemma {:induction false} ClearingStatusKeepsFilter(p: Page, status: string)
    requires status != "" && status != AllLabel
    ensures var q := SelectStatus(SelectStatus(p, Some(status)), None);
      && q.selectedStatus.None?
      && "status" in Query(q) && Query(q)["status"] == status
  {
    var q := SelectStatus(SelectStatus(p, Some(status)), None);
    assert q.filterStatus == status;
  }

  /** The state change of one task-list fetch: a response replaces the tasks (sorted for the
      current option) and the tabs; a failure leaves the page as it was. */
  function ApplyFetch(p: Page, response: Fetched<TaskListBody>): (q: Page)
    ensures response.FetchFailed? ==> q == p
    ensures response.Loaded? ==>
      && multiset(q.allTasks) == multiset(ResponseTasks(response.body))
      && OrderedFor(q.allTasks, ParseSort(p.sortOption))
      && SameTieOrder(q.allTasks, ResponseTasks(response.body), ParseSort(p.sortOption))
      && q.tabs == BuildTabs(response.body.statusSummary)
    ensures q.filterStatus == p.filterStatus && q.selectedUserId == p.selectedUserId
      && q.selectedStatus == p.selectedStatus && q.sortOption == p.sortOption
  {
    match response
    case Loaded(body) =>
      p.(allTasks := SortTasks(ResponseTasks(body), p.sortOption), tabs := BuildTabs(body.statusSummary))
    case FetchFailed => p
  }

  /** Every transition keeps the selected status mirrored in the tab status. */
  lemma {:induction false} TransitionsKeepSynced(p: Page, tab: string, u: Option<string>, s: Option<string>,
                                                sort: string, response: Fetched<TaskListBody>)
    requires Synced(p)
    ensures Synced(TabClick(p, tab)) && Synced(SelectUser(p, u)) && Synced(SelectStatus(p, s))
      && Synced(SelectSort(p, sort)) && Synced(ApplyFetch(p, response))
  {
  }

  /** The sidebar as this page wires it: all three callbacks passed. */
  const Wiring: SideMenu.Wiring := SideMenu.Wiring(true, true, true)

  /** A sidebar callback arriving at the page: each one sets the matching page state and
      keeps the selected status mirrored in the tab status. */
  function ApplyNotice(p: Page, n: SideMenu.Notice): (q: Page)
    ensures n.UserSelected? ==> q == SelectUser(p, n.userId)
    ensures n.StatusSelected? ==>
      && q.selectedStatus == n.status && q.selectedUserId == p.selectedUserId && q.sortOption == p.sortOption
      && q.filterStatus == (if n.status.Some? then n.status.value else p.filterStatus)
    ensures n.SortChanged? ==>
      && q.sortOption == n.sort && q.selectedStatus == p.selectedStatus
      && q.selectedUserId == p.selectedUserId && q.filterStatus == p.filterStatus
    ensures q.allTasks == p.allTasks && q.tabs == p.tabs
    ensures Synced(p) ==> Synced(q)
  {
    match n
    case UserSelected(u) => SelectUser(p, u)
    case StatusSelected(st) => SelectStatus(p, st)
    case SortChanged(sort) => SelectSort(p, sort)
  }

  /** Callbacks arriving in order: the task list and tabs are untouched until the next fetch,
      and the page stays synced. */
  function ApplyNotices(p: Page, ns: seq<SideMenu.Notice>): (q: Page)
    ensures q.allTasks == p.allTasks && q.tabs == p.tabs
    ensures Synced(p) ==> Synced(q)
    ensures (forall i | 0 <= i < |ns| :: !ns[i].UserSelected?) ==> q.selectedUserId == p.selectedUserId
    decreases |ns|
  {
    if |ns| == 0 then p else ApplyNotices(ApplyNotice(p, ns[0]), ns[1..])
  }

  /** Callbacks split into two batches arrive as the first batch followed by the second. */
  lemma {:induction false} ApplyNoticesAppend(p: Page, xs: seq<SideMenu.Notice>, ys: seq<SideMenu.Notice>)
    ensures ApplyNotices(p, xs + ys) == ApplyNotices(ApplyNotices(p, xs), ys)
    decreases |xs|
  {
    if |xs| == 0 {
      assert xs + ys == ys;
    } else {
      assert (xs + ys)[0] == xs[0] && (xs + ys)[1..] == xs[1..] + ys;
      ApplyNoticesAppend(ApplyNotice(p, xs[0]), xs[1..], ys);
    }
  }

  /** A single callback arrives as itself. */
  lemma ApplyOneNotice(p: Page, n: SideMenu.Notice)
    ensures ApplyNotices(p, [n]) == ApplyNotice(p, n)
  {
    assert [n][1..] == [];
  }

  /** A sidebar user click leaves the page holding the same user selection as the sidebar. */
  lemma SidebarUserClickMirrored(p: Page, s: SideMenu.State, userId: string)
    ensures var r := SideMenu.ClickUserRow(s, Wiring, userId);
      ApplyNotices(p, r.notices).selectedUserId == r.state.selectedUserId
  {
    var r := SideMenu.ClickUserRow(s, Wiring, userId);
    assert r.notices == [SideMenu.UserSelected(r.state.selectedUserId)];
  }

  /** The three reset callbacks, arriving in the order the sidebar makes them, clear the user,
      the sidebar status and the sort and leave the tab status alone. */
  lemma {:induction false} ResetNoticesEffect(p: Page)
    ensures var q := ApplyNotices(p, [SideMenu.UserSelected(None)] + [SideMenu.StatusSelected(None)]
                                     + [SideMenu.SortChanged(DefaultSortOption)]);
      q == p.(selectedUserId := None, selectedStatus := None, sortOption := DefaultSortOption)
  {
    var a, b, c := SideMenu.UserSelected(None), SideMenu.StatusSelected(None), SideMenu.SortChanged(DefaultSortOption);
    ApplyNoticesAppend(p, [a] + [b], [c]);
    ApplyNoticesAppend(p, [a], [b]);
    ApplyOneNotice(p, a);
    var q1 := ApplyNotice(p, a);
    ApplyOneNotice(q1, b);
    var q2 := ApplyNotice(q1, b);
    ApplyOneNotice(q2, c);
    assert q1 == p.(selectedUserId := None);
    assert q2 == q1.(selectedStatus := None);
  }

  /** "Reset All Filters" clears the user, the sidebar status and the sort, but the page keeps
      filtering by the last tab status. */
  lemma {:induction false} SidebarResetKeepsTabStatus(p: Page, s: SideMenu.State)
    ensures var q := ApplyNotices(p, SideMenu.ResetFilters(s, Wiring).notices);
      && q.selectedUserId.None? && q.selectedStatus.None? && q.sortOption == DefaultSortOption
      && q.filterStatus == p.filterStatus
      && Query(q) == AdminParams(None, Some(p.filterStatus), DefaultSortOption)
  {
    SideMenu.ResetNoticesInOrder(s);
    ResetNoticesEffect(p);
    var q := p.(selectedUserId := None, selectedStatus := None, sortOption := DefaultSortOption);
    assert EffectiveStatus(q.selectedStatus, q.filterStatus) == p.filterStatus;
  }
}

=== FILE: manage_users.dfy ===
/** The admin Manage Users page: the roster joined with per-user task counts,
    and the edit form that sends only the fields that differ. */
module ManageUsersPage {
  import opened Wrappers
  import opened LastWins
  import opened GroupedTasks

  /** A roster entry as the users endpoint returns it; optional fields may be absent. */
  datatype User = User(id: string, name: string, email: string,
                       role: Option<string>, position: Option<string>, profileImageUrl: Option<string>)

  /** A roster entry spread into a new object with the three task counts added. */
  datatype MergedUser = MergedUser(user: User, pendingTask: nat, inProgressTask: nat, completedTask: nat)

  /** `tasksByUserId[id] || {}`: the buckets of the last grouped entry for `id`, `{}` when none or null. */
  function BucketsOf(grouped: seq<GroupedUser>, id: string): seq<Bucket> {
    match Find(grouped, GroupedId, id)
    case Some(g) => g.tasks.GetOr([])
    case None => []
  }

  function MergeOne(u: User, table: map<string, GroupedUser>): MergedUser {
    var buckets := if u.id in table then table[u.id].tasks.GetOr([]) else [];
    MergedUser(u, BucketCount(buckets, "Pending"), BucketCount(buckets, "In Progress"), BucketCount(buckets, "Completed"))
  }

  /** The merge in `getUsersAndTasks`: one row per roster user, in roster order, each keeping the user
      and counting the "Pending", "In Progress" and "Completed" buckets of that user's last grouped entry. */
  function Merge(roster: seq<User>, grouped: seq<GroupedUser>): (rows: seq<MergedUser>)
    ensures |rows| == |roster|
    ensures forall i | 0 <= i < |rows| :: rows[i].user == roster[i]
    ensures forall i | 0 <= i < |rows| ::
      && rows[i].pendingTask == BucketCount(BucketsOf(grouped, roster[i].id), "Pending")
      && rows[i].inProgressTask == BucketCount(BucketsOf(grouped, roster[i].id), "In Progress")
      && rows[i].completedTask == BucketCount(BucketsOf(grouped, roster[i].id), "Completed")
  {
    var table := Index(grouped, GroupedId);
    assert forall id :: Find(grouped, GroupedId, id) == if id in table then Some(table[id]) else None;
    seq(|roster|, i requires 0 <= i < |roster| => MergeOne(roster[i], table))
  }

  /** A roster user with no grouped entry gets zero counts. */
  lemma {:induction false} UngroupedUserCountsZero(roster: seq<User>, grouped: seq<GroupedUser>, i: nat)
    requires i < |roster|
    requires forall j | 0 <= j < |grouped| :: grouped[j].id != roster[i].id
    ensures var row := Merge(roster, grouped)[i];
      row.pendingTask == 0 && row.inProgressTask == 0 && row.completedTask == 0
  {
    assert Find(grouped, GroupedId, roster[i].id).None?;
  }

  /** For a user whose buckets are exactly the three statuses, the card's three counts add up
      to the sidebar's total badge for that user. */
  lemma {:induction false} MergedCountsMatchSidebarTotal(roster: seq<User>, grouped: seq<GroupedUser>, i: nat)
    requires i < |roster|
    requires var b := BucketsOf(grouped, roster[i].id);
      UniqueLabels(b) && forall s :: HasLabel(b, s) <==> s in {"Pending", "In Progress", "Completed"}
    ensures var row := Merge(roster, grouped)[i];
      row.pendingTask + row.inProgressTask + row.completedTask == TotalCount(BucketsOf(grouped, roster[i].id))
  {
    TotalIsSumOfStatuses(BucketsOf(grouped, roster[i].id));
  }

  /** The two responses of `getUsersAndTasks`: the roster array and the grouped `users` array, either possibly absent. */
  datatype UsersAndTasks = UsersAndTasks(roster: Option<seq<User>>, grouped: Option<seq<GroupedUser>>)

  /** A complete pair of responses replaces the list with the merge; a failure or a missing part keeps it. */
  function LoadUsers(allUsers: seq<MergedUser>, response: Fetched<UsersAndTasks>): (r: seq<MergedUser>)
    ensures response.Loaded? && response.body.roster.Some? && response.body.grouped.Some? ==>
      r == Merge(response.body.roster.value, response.body.grouped.value)
    ensures !(response.Loaded? && response.body.roster.Some? && response.body.grouped.Some?) ==> r == allUsers
  {
    match response
    case Loaded(UsersAndTasks(Some(roster), Some(grouped))) => Merge(roster, grouped)
    case _ => allUsers
  }

  /** The edit form: the user being edited and the three inputs. */
  datatype EditForm = EditForm(editingUser: Option<User>, positionInput: string, photoInput: string, roleInput: string)

  const NoEdit: EditForm := EditForm(None, "", "", "")

  /** `handleEditClick`: starts editing `u`, each input taken from the user or "" when absent. */
  function EditClick(f: EditForm, u: User): (g: EditForm)
    ensures g.editingUser == Some(u)
    ensures g.positionInput == u.position.GetOr("")
    ensures g.photoInput == u.profileImageUrl.GetOr("")
    ensures g.roleInput == u.role.GetOr("")
  {
    EditForm(Some(u), u.position.GetOr(""), u.profileImageUrl.GetOr(""), u.role.GetOr(""))
  }

  /** The Cancel button. */
  function CancelEdit(f: EditForm): (g: EditForm)
    ensures g.editingUser.None?
    ensures g.positionInput == f.positionInput && g.photoInput == f.photoInput && g.roleInput == f.roleInput
    ensures PlannedUpdates(g) == []
  {
    f.(editingUser := None)
  }

  datatype UserField = Position | ProfilePhoto | Role

  /** One `PUT` of a single field of a user. */
  datatype FieldUpdate = FieldUpdate(userId: string, field: UserField, value: string)

  function FieldOrder(f: UserField): nat {
    match f
    case Position => 0
    case ProfilePhoto => 1
    case Role => 2
  }

  /** The stored value of a field. */
  function Stored(u: User, f: UserField): Option<string> {
    match f
    case Position => u.position
    case ProfilePhoto => u.profileImageUrl
    case Role => u.role
  }

  function InputFor(form: EditForm, f: UserField): string {
    match f
    case Position => form.positionInput
    case ProfilePhoto => form.photoInput
    case Role => form.roleInput
  }

  /** `input !== stored`: an absent stored value differs from every string. */
  predicate Changed(form: EditForm, u: User, f: UserField) {
    Stored(u, f) != Some(InputFor(form, f))
  }

  function UpdateIf(form: EditForm, u: User, f: UserField): seq<FieldUpdate> {
    if Changed(form, u, f) then [FieldUpdate(u.id, f, InputFor(form, f))] else []
  }

  /** The `PUT`s `handleSave` issues, in order: position, photo, role, each only when changed. */
  function PlannedUpdates(form: EditForm): (ups: seq<FieldUpdate>)
    ensures form.editingUser.None? ==> ups == []
    ensures form.editingUser.Some? ==> forall i | 0 <= i < |ups| ::
      && ups[i].userId == form.editingUser.value.id
      && ups[i].value == InputFor(form, ups[i].field)
      && Changed(form, form.editingUser.value, ups[i].field)
    ensures form.editingUser.Some? ==> forall f: UserField ::
      Changed(form, form.editingUser.value, f) <==> exists i | 0 <= i < |ups| :: ups[i].field == f
    ensures forall i, j | 0 <= i < j < |ups| :: FieldOrder(ups[i].field) < FieldOrder(ups[j].field)
  {
    match form.editingUser
    case None => []
    case Some(u) =>
      var ups := UpdateIf(form, u, Position) + UpdateIf(form, u, ProfilePhoto) + UpdateIf(form, u, Role);
      PlannedCoversChanged(form, u, ups);
      PlannedElements(form, u, ups);
      ups
  }

  lemma PlannedElements(form: EditForm, u: User, ups: seq<FieldUpdate>)
    requires ups == UpdateIf(form, u, Position) + UpdateIf(form, u, ProfilePhoto) + UpdateIf(form, u, Role)
    ensures forall i | 0 <= i < |ups| ::
      && ups[i].userId == u.id
      && ups[i].value == InputFor(form, ups[i].field)
      && Changed(form, u, ups[i].field)
    ensures forall i, j | 0 <= i < j < |ups| :: FieldOrder(ups[i].field) < FieldOrder(ups[j].field)
  {
    var a, b, c := UpdateIf(form, u, Position), UpdateIf(form, u, ProfilePhoto), UpdateIf(form, u, Role);
    assert forall i | 0 <= i < |ups| ::
      ups[i] == if i < |a| then a[i] else if i < |a| + |b| then b[i - |a|] else c[i - |a| - |b|];
  }

  lemma PlannedCoversChanged(form: EditForm, u: User, ups: seq<FieldUpdate>)
    requires ups == UpdateIf(form, u, Position) + UpdateIf(form, u, ProfilePhoto) + UpdateIf(form, u, Role)
    ensures forall f: UserField :: Changed(form, u, f) <==> exists i | 0 <= i < |ups| :: ups[i].field == f
  {
    var a, b, c := UpdateIf(form, u, Position), UpdateIf(form, u, ProfilePhoto), UpdateIf(form, u, Role);
    forall f: UserField
      ensures Changed(form, u, f) <==> exists i | 0 <= i < |ups| :: ups[i].field == f
    {
      if Changed(form, u, f) {
        var i := match f case Position => 0 case ProfilePhoto => |a| case Role => |a| + |b|;
        assert ups[i].field == f;
      }
    }
  }

  /** Opening the form and saving untouched re-sends exactly the fields the user lacks, each as "". */
  lemma {:induction false} UntouchedSaveResendsAbsentFields(f: EditForm, u: User)
    ensures var ups := PlannedUpdates(EditClick(f, u));
      && (forall i | 0 <= i < |ups| :: ups[i].value == "" && Stored(u, ups[i].field).None?)
      && (forall g: UserField :: Stored(u, g).None? <==> exists i | 0 <= i < |ups| :: ups[i].field == g)
  {
    var form := EditClick(f, u);
    var ups := PlannedUpdates(form);
    forall g: UserField
      ensures Changed(form, u, g) <==> Stored(u, g).None?
    {
      match g
      case Position =>
      case ProfilePhoto =>
      case Role =>
    }
  }

  /** The outcome of saving: the `PUT`s attempted, the new form, and whether the list is refetched. */
  datatype SaveOutcome = SaveOutcome(attempted: seq<FieldUpdate>, form: EditForm, refetch: bool)

  /** `handleSave`, given the position of the first failing `PUT` (if any): the `PUT`s run in order
      and stop at a failure, which keeps the form; when all succeed, editing ends and the list is refetched. */
  function Save(form: EditForm, firstFailure: Option<nat>): (out: SaveOutcome)
    ensures form.editingUser.None? ==> out == SaveOutcome([], form, false)
    ensures var ups := PlannedUpdates(form);
      form.editingUser.Some? && firstFailure.Some? && firstFailure.value < |ups| ==>
        out == SaveOutcome(ups[..firstFailure.value + 1], form, false)
    ensures var ups := PlannedUpdates(form);
      form.editingUser.Some? && !(firstFailure.Some? && firstFailure.value < |ups|) ==>
        out == SaveOutcome(ups, form.(editingUser := None), true)
  {
    if form.editingUser.None? then SaveOutcome([], form, false)
    else
      var ups := PlannedUpdates(form);
      match firstFailure
      case Some(k) =>
        if k < |ups| then SaveOutcome(ups[..k + 1], form, false)
        else SaveOutcome(ups, form.(editingUser := None), true)
      case None => SaveOutcome(ups, form.(editingUser := None), true)
  }

  /** The `PUT`s a save attempts are a prefix of the planned ones, and the list is refetched
      only when every planned `PUT` was attempted and none failed. */
  lemma SaveAttemptsPlannedPrefix(form: EditForm, firstFailure: Option<nat>)
    ensures var out := Save(form, firstFailure); var ups := PlannedUpdates(form);
      && out.attempted <= ups
      && (out.refetch <==> form.editingUser.Some? && !(firstFailure.Some? && firstFailure.value < |ups|))
      && (out.refetch ==> out.attempted == ups && out.form.editingUser.None?)
      && (!out.refetch ==> out.form == form)
  {
  }
}

=== FILE: my_task.dfy ===
/** The user's My Tasks page: its filter state, the request it issues, and how a response updates it. */
module MyTaskPage {
  import opened Wrappers
  import opened Js
  import opened TaskData
  import opened SortOption
  import opened TaskOrder
  import opened TaskQuery

  datatype Page = Page(
    allTasks: seq<Task>,
    tabs: seq<Tab>,
    filterStatus: string,
    selectedStatus: Option<string>,
    sortOption: string,
    searchTerm: string)

  const Initial: Page := Page([], [], AllLabel, None, DefaultSortOption, "")

  /** The request the fetch effect issues for the current state. */
  function Query(p: Page): (params: Params)
    ensures "assignedTo" !in params
    ensures params.Keys <= UserKeys
    ensures Truthy(p.selectedStatus) && p.selectedStatus.value != AllLabel ==>
      "status" in params && params["status"] == p.selectedStatus.value
    ensures !Truthy(p.selectedStatus) ==>
      ("status" in params <==> p.filterStatus != "" && p.filterStatus != AllLabel)
    ensures var e := EffectiveStatus(p.selectedStatus, p.filterStatus);
      && ("status" in params <==> e != "" && e != AllLabel)
      && ("status" in params ==> params["status"] == e)
    ensures "sortBy" in params <==> p.sortOption != ""
    ensures "sortBy" in params ==> params["sortBy"] == ParseSort(p.sortOption).sortBy
    ensures "sortOrder" in params <==> '_' in p.sortOption
    ensures "sortOrder" in params ==> Some(params["sortOrder"]) == ParseSort(p.sortOption).sortOrder
    ensures "search" in params <==> p.searchTerm != ""
    ensures "search" in params ==> params["search"] == p.searchTerm
  {
    UserParams(Some(EffectiveStatus(p.selectedStatus, p.filterStatus)), p.sortOption, p.searchTerm)
  }

  /** A tab click sets only the tab status (`setActiveTab={setFilterStatus}`). */
  function TabClick(p: Page, tab: string): (q: Page)
    ensures q.filterStatus == tab
    ensures q.selectedStatus == p.selectedStatus && q.sortOption == p.sortOption && q.searchTerm == p.searchTerm
    ensures q.allTasks == p.allTasks && q.tabs == p.tabs
    ensures !Truthy(p.selectedStatus) ==>
      && ("status" in Query(q) <==> tab != "" && tab != AllLabel)
      && ("status" in Query(q) ==> Query(q)["status"] == tab)
  {
    p.(filterStatus := tab)
  }

  /** While a sidebar status is selected, tab clicks do not change the request. */
  lemma TabClickShadowedBySidebar(p: Page, tab: string)
    requires Truthy(p.selectedStatus)
    ensures Query(TabClick(p, tab)) == Query(p)
  {
  }

  /** `onStatusSelect`, wired to `setSelectedStatus`. */
  function SelectStatus(p: Page, status: Option<string>): (q: Page)
    ensures q.selectedStatus == status
    ensures q.filterStatus == p.filterStatus && q.sortOption == p.sortOption && q.searchTerm == p.searchTerm
    ensures q.allTasks == p.allTasks && q.tabs == p.tabs
    ensures Truthy(status) ==>
      && ("status" in Query(q) <==> status.value != AllLabel)
      && ("status" in Query(q) ==> Query(q)["status"] == status.value)
  {
    p.(selectedStatus := status)
  }

  /** `onSortChange`, wired to `setSortOption`. */
  function SelectSort(p: Page, sort: string): (q: Page)
    ensures q.sortOption == sort
    ensures q.filterStatus == p.filterStatus && q.selectedStatus == p.selectedStatus && q.searchTerm == p.searchTerm
    ensures q.allTasks == p.allTasks && q.tabs == p.tabs
    ensures "sortBy" in Query(q) <==> sort != ""
    ensures "sortOrder" in Query(q) <==> '_' in sort
  {
    p.(sortOption := sort)
  }

  /** `onSearchChange`, wired to `setSearchTerm`. */
  function SetSearch(p: Page, term: string): (q: Page)
    ensures q.searchTerm == term
    ensures q.filterStatus == p.filterStatus && q.selectedStatus == p.selectedStatus && q.sortOption == p.sortOption
    ensures q.allTasks == p.allTasks && q.tabs == p.tabs
    ensures "search" in Query(q) <==> term != ""
    ensures "search" in Query(q) ==> Query(q)["search"] == term
  {
    p.(searchTerm := term)
  }

  /** Selecting a status and then clearing it restores the original request,
      because this page never copies the sidebar status into the tab status. */
  lemma {:induction false} SelectThenClearRestoresQuery(p: Page, status: string)
    requires p.selectedStatus.None?
    ensures Query(SelectStatus(SelectStatus(p, Some(status)), None)) == Query(p)
  {
    assert SelectStatus(SelectStatus(p, Some(status)), None) == p;
  }

  /** One fetch: a response replaces the tasks (sorted for the current option) and the tabs;
      a failure empties both. */
  function ApplyFetch(p: Page, response: Fetched<TaskListBody>): (q: Page)
    ensures response.FetchFailed? ==> q.allTasks == [] && q.tabs == []
    ensures response.Loaded? ==>
      && multiset(q.allTasks) == multiset(ResponseTasks(response.body))
      && OrderedFor(q.allTasks, ParseSort(p.sortOption))
      && SameTieOrder(q.allTasks, ResponseTasks(response.body), ParseSort(p.sortOption))
      && q.tabs == BuildTabs(response.body.statusSummary)
    ensures q.filterStatus == p.filterStatus && q.selectedStatus == p.selectedStatus
      && q.sortOption == p.sortOption && q.searchTerm == p.searchTerm
  {
    match response
    case Loaded(body) =>
      var tasks := ResponseTasks(body);
      var sorted := if |tasks| > 0 then SortTasks(tasks, p.sortOption) else tasks;
      p.(allTasks := sorted, tabs := BuildTabs(body.statusSummary))
    case FetchFailed => p.(allTasks := [], tabs := [])
  }

  /** After a failed fetch the tab strip is hidden; after a response it is shown iff the total is positive. */
  lemma FetchShowsTabs(p: Page, response: Fetched<TaskListBody>)
    ensures response.FetchFailed? ==> !ShowTabs(ApplyFetch(p, response).tabs)
    ensures response.Loaded? ==>
      (ShowTabs(ApplyFetch(p, response).tabs) <==>
        var s := response.body.statusSummary; s.Some? && s.value.all.Some? && s.value.all.value > 0)
  {
    if response.Loaded? {
      ShowTabsIffPositiveTotal(response.body.statusSummary);
    }
  }
}

=== FILE: requests.dfy ===
/** Task-assignment requests as the request endpoints return them. */
module Requests {
  import opened Wrappers
  import opened Js

  /** A reference field that the backend may leave as an id string, populate into an object, or omit.
      A task reference may also be an explicit `null` (the task was deleted), which JavaScript
      coerces to a different property name than a missing field. */
  datatype UserRef = NoUser | UserId(id: string) | PopulatedUser(id: string, name: Option<string>)
  datatype TaskRef = NoTask | NullTask | TaskId(id: string) | PopulatedTask(id: string, title: Option<string>)

  datatype Request = Request(
    id: string,
    taskId: TaskRef,
    assignedToUserId: UserRef,
    assignedByAdminId: UserRef,
    status: Option<string>,
    rejectionReason: Option<string>)

  /** `ref?.name`: only a populated object has a name; an id string has none. */
  function NameOf(r: UserRef): Option<string> {
    if r.PopulatedUser? then r.name else None
  }

  /** `ref?.title`. */
  function TitleOf(t: TaskRef): Option<string> {
    if t.PopulatedTask? then t.title else None
  }

  /** `ref?.name || fallback`. */
  function DisplayName(r: UserRef, fallback: string): (s: string)
    ensures s == fallback <==> (!Truthy(NameOf(r)) || NameOf(r).value == fallback)
    ensures s != fallback ==> r.PopulatedUser? && r.name == Some(s)
  {
    OrElse(NameOf(r), fallback)
  }

  /** The body of a request-list response: `requests`, possibly absent. */
  datatype RequestListBody = RequestListBody(requests: Option<seq<Request>>)
}

=== FILE: routing.dfy ===
/** The route table and the redirect of the root path. */
module Routing {
  import opened Wrappers

  /** The signed-in user as the user context provides it. */
  datatype AuthUser = AuthUser(role: Option<string>)

  /** What `Root` renders: the nested outlet, or a redirect. */
  datatype Navigation = RenderOutlet | RedirectTo(path: string)

  /** `Root`: nothing is decided while the user loads; then no user goes to /login,
      role "admin" to the admin dashboard and every other role to the user dashboard. */
  function RootDecision(loading: bool, user: Option<AuthUser>): (n: Navigation)
    ensures loading <==> n == RenderOutlet
    ensures !loading && user.None? ==> n == RedirectTo("/login")
    ensures !loading && user.Some? ==>
      n == RedirectTo(if user.value.role == Some("admin") then "/admin/dashboard" else "/user/dashboard")
  {
    if loading then RenderOutlet
    else match user
      case None => RedirectTo("/login")
      case Some(u) => if u.role == Some("admin") then RedirectTo("/admin/dashboard") else RedirectTo("/user/dashboard")
  }

  /** A route: its path pattern and, when wrapped in `PrivateRoute`, the roles it allows. */
  datatype Route = Route(path: string, allowedRoles: Option<seq<string>>)

  const AdminOnly: Option<seq<string>> := Some(["admin"])

  /** The pages under the admin guard and the pages under the guard of the user section. */
  const AdminPaths: seq<string> :=
    ["/admin/dashboard", "/admin/tasks", "/admin/create-task", "/admin/users", "/admin/task-assignment-mailbox"]
  const UserPaths: seq<string> :=
    ["/user/dashboard", "/user/tasks", "/user/tasks-details/:id", "/user/task-assignment-mailbox"]

  /** A group of routes nested in one `PrivateRoute` with the given roles. */
  function Guarded(paths: seq<string>, roles: Option<seq<string>>): (rs: seq<Route>)
    ensures |rs| == |paths|
    ensures forall i | 0 <= i < |rs| :: rs[i] == Route(paths[i], roles)
  {
    seq(|paths|, i requires 0 <= i < |paths| => Route(paths[i], roles))
  }

  /** The table as declared, in order; the user section is guarded with the admin role as written. */
  const Routes: seq<Route> :=
    [Route("/login", None), Route("/signup", None)]
    + Guarded(AdminPaths, AdminOnly)
    + Guarded(UserPaths, AdminOnly)
    + [Route("/", None)]

  /** The guard of a declared path, the first matching entry. */
  function GuardOf(routes: seq<Route>, path: string): (g: Option<Option<seq<string>>>)
    ensures g.None? <==> forall i | 0 <= i < |routes| :: routes[i].path != path
    ensures g.Some? ==> exists i | 0 <= i < |routes| :: routes[i].path == path && routes[i].allowedRoles == g.value
  {
    if |routes| == 0 then None
    else if routes[0].path == path then Some(routes[0].allowedRoles)
    else
      var g := GuardOf(routes[1..], path);
      assert forall i | 1 <= i < |routes| :: routes[1..][i - 1] == routes[i];
      g
  }

  const PublicPaths: set<string> := {"/login", "/signup", "/"}

  /** Every entry is either public or admits the role "admin" only. */
  lemma {:induction false} RouteGuards()
    ensures forall i | 0 <= i < |Routes| ::
      (Routes[i].allowedRoles.None? <==> Routes[i].path in PublicPaths)
      && (Routes[i].allowedRoles.Some? ==> Routes[i].allowedRoles == AdminOnly)
  {
    var a := Guarded(AdminPaths, AdminOnly);
    var u := Guarded(UserPaths, AdminOnly);
    forall i | 0 <= i < |Routes|
      ensures Routes[i].allowedRoles.None? <==> Routes[i].path in PublicPaths
      ensures Routes[i].allowedRoles.Some? ==> Routes[i].allowedRoles == AdminOnly
    {
      if 2 <= i < 2 + |a| {
        assert Routes[i] == a[i - 2];
        assert AdminPaths[i - 2] !in PublicPaths;
      } else if 2 + |a| <= i < 2 + |a| + |u| {
        assert Routes[i] == u[i - 2 - |a|];
        assert UserPaths[i - 2 - |a|] !in PublicPaths;
      }
    }
  }

  /** The public pages are unguarded, and every admin page and every user page admits the role "admin" only. */
  lemma GuardTable()
    ensures GuardOf(Routes, "/login") == Some(None)
    ensures GuardOf(Routes, "/signup") == Some(None)
    ensures forall p | p in AdminPaths || p in UserPaths :: GuardOf(Routes, p) == Some(AdminOnly)
  {
    RouteGuards();
    var a := Guarded(AdminPaths, AdminOnly);
    var u := Guarded(UserPaths, AdminOnly);
    forall p | p in AdminPaths || p in UserPaths
      ensures GuardOf(Routes, p) == Some(AdminOnly)
    {
      if p in AdminPaths {
        var k :| 0 <= k < |AdminPaths| && AdminPaths[k] == p;
        assert Routes[2 + k] == a[k];
      } else {
        var k :| 0 <= k < |UserPaths| && UserPaths[k] == p;
        assert Routes[2 + |a| + k] == u[k];
      }
      assert p !in PublicPaths;
    }
  }

  /** Every redirect `Root` issues lands on a declared route. */
  lemma RedirectTargetsDeclared(loading: bool, user: Option<AuthUser>)
    requires RootDecision(loading, user).RedirectTo?
    ensures GuardOf(Routes, RootDecision(loading, user).path).Some?
  {
    GuardTable();
    assert AdminPaths[0] == "/admin/dashboard" && UserPaths[0] == "/user/dashboard";
  }

  /** As declared, `Root` sends every signed-in non-admin to a route whose guard lists only "admin". */
  lemma NonAdminSentToAdminOnlyRoute(user: AuthUser)
    requires user.role != Some("admin")
    ensures var n := RootDecision(false, Some(user));
      n == RedirectTo("/user/dashboard") && GuardOf(Routes, n.path) == Some(AdminOnly)
  {
    GuardTable();
    assert UserPaths[0] == "/user/dashboard";
  }
}

=== FILE: side_menu.dfy ===
/** The task filter sidebar: toggle selection of a user and a status, the sort select,
    expanded user rows, reset, and the per-user task badges. */
module SideMenu {
  import opened Wrappers
  import opened Js
  import opened SortOption
  import opened GroupedTasks

  /** The sidebar's local state. */
  datatype State = State(
    selectedUserId: Option<string>,
    selectedStatus: Option<string>,
    sortOption: string,
    expandedUserIds: seq<string>,
    users: seq<GroupedUser>)

  /** Which parent callbacks were passed in as props. */
  datatype Wiring = Wiring(onUserSelect: bool, onStatusSelect: bool, onSortChange: bool)

  /** A call the sidebar makes to its parent. */
  datatype Notice = UserSelected(userId: Option<string>) | StatusSelected(status: Option<string>) | SortChanged(sort: string)

  /** The new local state and the parent callbacks made, in order. */
  datatype Reaction = Reaction(state: State, notices: seq<Notice>)

  /** The props the parent page passes down. */
  datatype Props = Props(selectedUserId: Option<string>, selectedStatus: Option<string>, sortOption: Option<string>)

  /** `propSortOption || "createdAt_desc"`. */
  function SortFromProp(prop: Option<string>): (sort: string)
    ensures sort != ""
    ensures Truthy(prop) ==> sort == prop.value
    ensures !Truthy(prop) ==> sort == DefaultSortOption
  {
    OrElse(prop, DefaultSortOption)
  }

  /** The state on mount: selections from the props, no expanded rows, no users loaded. */
  function Initial(props: Props): (s: State)
    ensures s.selectedUserId == props.selectedUserId && s.selectedStatus == props.selectedStatus
    ensures s.sortOption != ""
    ensures Truthy(props.sortOption) ==> s.sortOption == props.sortOption.value
    ensures !Truthy(props.sortOption) ==> s.sortOption == DefaultSortOption
    ensures s.expandedUserIds == [] && s.users == []
  {
    State(props.selectedUserId, props.selectedStatus, SortFromProp(props.sortOption), [], [])
  }

  /** The three prop effects, each run when its prop changes: the parent's value overrides the
      local one, and nothing else changes. */
  function UserPropChanged(s: State, prop: Option<string>): (t: State)
    ensures t.selectedUserId == prop
    ensures t.selectedStatus == s.selectedStatus && t.sortOption == s.sortOption
    ensures t.expandedUserIds == s.expandedUserIds && t.users == s.users
  {
    s.(selectedUserId := prop)
  }

  function StatusPropChanged(s: State, prop: Option<string>): (t: State)
    ensures t.selectedStatus == prop
    ensures t.selectedUserId == s.selectedUserId && t.sortOption == s.sortOption
    ensures t.expandedUserIds == s.expandedUserIds && t.users == s.users
  {
    s.(selectedStatus := prop)
  }

  function SortPropChanged(s: State, prop: Option<string>): (t: State)
    ensures t.sortOption != ""
    ensures Truthy(prop) ==> t.sortOption == prop.value
    ensures !Truthy(prop) ==> t.sortOption == DefaultSortOption
    ensures t.selectedUserId == s.selectedUserId && t.selectedStatus == s.selectedStatus
    ensures t.expandedUserIds == s.expandedUserIds && t.users == s.users
  {
    s.(sortOption := SortFromProp(prop))
  }

  /** Once all three prop effects have run, the selections and sort are what mounting with the
      same props gives, whatever the local state was; only the rows and users survive. */
  lemma PropEffectsMatchMount(s: State, props: Props)
    ensures var t := SortPropChanged(StatusPropChanged(UserPropChanged(s, props.selectedUserId),
                                                       props.selectedStatus), props.sortOption);
      t == Initial(props).(expandedUserIds := s.expandedUserIds, users := s.users)
  {
  }

  /** Toggle selection: picking the current value clears it, anything else replaces it. */
  function Toggle(current: Option<string>, picked: string): (r: Option<string>)
    ensures r.None? <==> current == Some(picked)
    ensures r.Some? ==> r.value == picked
  {
    if current == Some(picked) then None else Some(picked)
  }

  /** Picking the same value twice leaves it selected only if it already was. */
  lemma ToggleTwice(current: Option<string>, picked: string)
    ensures Toggle(Toggle(current, picked), picked) == if current == Some(picked) then current else None
  {
  }

  /** The order in which the reset reports: user, then status, then sort. */
  function NoticeRank(n: Notice): nat {
    match n
    case UserSelected(_) => 0
    case StatusSelected(_) => 1
    case SortChanged(_) => 2
  }

  function Notify(enabled: bool, n: Notice): seq<Notice> {
    if enabled then [n] else []
  }

  /** `handleUserSelect`. */
  function SelectUser(s: State, w: Wiring, userId: string): (r: Reaction)
    ensures r.state.selectedUserId == Toggle(s.selectedUserId, userId)
    ensures r.state == s.(selectedUserId := r.state.selectedUserId)
    ensures r.notices == if w.onUserSelect then [UserSelected(r.state.selectedUserId)] else []
  {
    var next := Toggle(s.selectedUserId, userId);
    Reaction(s.(selectedUserId := next), Notify(w.onUserSelect, UserSelected(next)))
  }

  /** `handleStatusSelect`. */
  function SelectStatus(s: State, w: Wiring, status: string): (r: Reaction)
    ensures r.state.selectedStatus == Toggle(s.selectedStatus, status)
    ensures r.state == s.(selectedStatus := r.state.selectedStatus)
    ensures r.notices == if w.onStatusSelect then [StatusSelected(r.state.selectedStatus)] else []
  {
    var next := Toggle(s.selectedStatus, status);
    Reaction(s.(selectedStatus := next), Notify(w.onStatusSelect, StatusSelected(next)))
  }

  /** `handleSortChange`. */
  function ChangeSort(s: State, w: Wiring, sort: string): (r: Reaction)
    ensures r.state == s.(sortOption := sort)
    ensures r.notices == if w.onSortChange then [SortChanged(sort)] else []
  {
    Reaction(s.(sortOption := sort), Notify(w.onSortChange, SortChanged(sort)))
  }

  /** `resetFilters`: clears both selections and restores the default sort, telling the parent each. */
  function ResetFilters(s: State, w: Wiring): (r: Reaction)
    ensures r.state.selectedUserId.None? && r.state.selectedStatus.None?
    ensures r.state.sortOption == DefaultSortOption
    ensures r.state.expandedUserIds == s.expandedUserIds && r.state.users == s.users
    ensures forall n | n in r.notices :: n in [UserSelected(None), StatusSelected(None), SortChanged(DefaultSortOption)]
    ensures UserSelected(None) in r.notices <==> w.onUserSelect
    ensures StatusSelected(None) in r.notices <==> w.onStatusSelect
    ensures SortChanged(DefaultSortOption) in r.notices <==> w.onSortChange
    ensures forall i, j | 0 <= i < j < |r.notices| :: NoticeRank(r.notices[i]) < NoticeRank(r.notices[j])
    ensures |r.notices| == (if w.onUserSelect then 1 else 0) + (if w.onStatusSelect then 1 else 0)
      + (if w.onSortChange then 1 else 0)
  {
    Reaction(
      s.(selectedUserId := None, selectedStatus := None, sortOption := DefaultSortOption),
      Notify(w.onUserSelect, UserSelected(None))
        + Notify(w.onStatusSelect, StatusSelected(None))
        + Notify(w.onSortChange, SortChanged(DefaultSortOption)))
  }

  /** With every callback wired, the reset reports the user, then the status, then the sort. */
  lemma ResetNoticesInOrder(s: State)
    ensures ResetFilters(s, Wiring(true, true, true)).notices
      == [UserSelected(None)] + [StatusSelected(None)] + [SortChanged(DefaultSortOption)]
  {
  }

  /** Resetting is idempotent, and its outcome does not depend on the prior selections or sort. */
  lemma ResetIdempotent(s: State, t: State, w: Wiring)
    requires t.expandedUserIds == s.expandedUserIds && t.users == s.users
    ensures ResetFilters(ResetFilters(s, w).state, w) == ResetFilters(s, w)
    ensures ResetFilters(t, w) == ResetFilters(s, w)
  {
  }

  /** `ids.filter(id => id !== x)`. */
  function Without(ids: seq<string>, x: string): (r: seq<string>)
    ensures x !in r
    ensures forall y | y != x :: y in r <==> y in ids
    ensures x !in ids ==> r == ids
  {
    if |ids| == 0 then []
    else
      var rest := Without(ids[1..], x);
      if ids[0] == x then rest
      else
        assert ids == [ids[0]] + ids[1..];
        [ids[0]] + rest
  }

  lemma {:induction false} WithoutAppended(ids: seq<string>, x: string)
    ensures Without(ids + [x], x) == Without(ids, x)
    decreases |ids|
  {
    if |ids| == 0 {
      assert Without([x], x) == Without([x][1..], x);
    } else {
      assert (ids + [x])[1..] == ids[1..] + [x];
      WithoutAppended(ids[1..], x);
    }
  }

  /** `toggleUserExpand`: removes the id if present, else appends it. */
  function ToggleExpand(ids: seq<string>, x: string): (r: seq<string>)
    ensures x in r <==> x !in ids
    ensures x !in ids ==> r == ids + [x]
    ensures forall y | y != x :: y in r <==> y in ids
  {
    if x in ids then Without(ids, x) else ids + [x]
  }

  /** Other ids keep their relative order through a toggle. */
  lemma ToggleExpandKeepsOthers(ids: seq<string>, x: string)
    ensures Without(ToggleExpand(ids, x), x) == Without(ids, x)
  {
    if x !in ids {
      WithoutAppended(ids, x);
    }
  }

  /** Toggling an id that is not expanded twice restores the list. */
  lemma ToggleExpandTwice(ids: seq<string>, x: string)
    requires x !in ids
    ensures ToggleExpand(ToggleExpand(ids, x), x) == ids
  {
    WithoutAppended(ids, x);
  }

  /** No id appears twice. */
  ghost predicate Distinct(ids: seq<string>) {
    forall i, j | 0 <= i < j < |ids| :: ids[i] != ids[j]
  }

  /** No id appears twice in a list built by toggles. */
  lemma {:induction false} ToggleExpandKeepsDistinct(ids: seq<string>, x: string)
    requires Distinct(ids)
    ensures Distinct(ToggleExpand(ids, x))
  {
    if x in ids {
      WithoutDistinct(ids, x);
    } else {
      var r := ids + [x];
      forall i, j | 0 <= i < j < |r|
        ensures r[i] != r[j]
      {
        if j == |ids| {
          assert r[i] == ids[i];
        } else {
          assert r[i] == ids[i] && r[j] == ids[j];
        }
      }
    }
  }

  lemma {:induction false} WithoutDistinct(ids: seq<string>, x: string)
    requires Distinct(ids)
    ensures Distinct(Without(ids, x))
    decreases |ids|
  {
    if |ids| > 0 {
      assert Distinct(ids[1..]) by {
        forall i, j | 0 <= i < j < |ids[1..]|
          ensures ids[1..][i] != ids[1..][j]
        {
          assert ids[1..][i] == ids[i + 1] && ids[1..][j] == ids[j + 1];
        }
      }
      WithoutDistinct(ids[1..], x);
      var rest := Without(ids[1..], x);
      if ids[0] != x {
        assert ids[0] !in ids[1..] by {
          forall k | 0 <= k < |ids[1..]|
            ensures ids[1..][k] != ids[0]
          {
            assert ids[1..][k] == ids[k + 1];
          }
        }
        assert ids[0] !in rest;
        var r := [ids[0]] + rest;
        forall i, j | 0 <= i < j < |r|
          ensures r[i] != r[j]
        {
          if i == 0 {
            assert r[j] == rest[j - 1] && rest[j - 1] in rest;
          } else {
            assert r[i] == rest[i - 1] && r[j] == rest[j - 1];
          }
        }
        assert Without(ids, x) == r;
      }
    }
  }

  /** A click on a user row toggles that row's expansion, then its selection. */
  function ClickUserRow(s: State, w: Wiring, userId: string): (r: Reaction)
    ensures r.state.expandedUserIds == ToggleExpand(s.expandedUserIds, userId)
    ensures r.state.selectedUserId == Toggle(s.selectedUserId, userId)
    ensures r.state.selectedStatus == s.selectedStatus && r.state.sortOption == s.sortOption
    ensures r.state.users == s.users
    ensures r.notices == if w.onUserSelect then [UserSelected(r.state.selectedUserId)] else []
  {
    SelectUser(s.(expandedUserIds := ToggleExpand(s.expandedUserIds, userId)), w, userId)
  }

  /** Two clicks on a collapsed, unselected row restore the sidebar. */
  lemma ClickUserRowTwice(s: State, w: Wiring, userId: string)
    requires userId !in s.expandedUserIds && s.selectedUserId != Some(userId)
    ensures ClickUserRow(ClickUserRow(s, w, userId).state, w, userId).state == s.(selectedUserId := None)
  {
    ToggleExpandTwice(s.expandedUserIds, userId);
  }

  /** `fetchUsersWithTasks`: a body with a `users` array replaces the list; anything else keeps it. */
  function LoadUsers(s: State, response: Fetched<Option<seq<GroupedUser>>>): (t: State)
    ensures response.Loaded? && response.body.Some? ==> t == s.(users := response.body.value)
    ensures !(response.Loaded? && response.body.Some?) ==> t == s
  {
    match response
    case Loaded(Some(users)) => s.(users := users)
    case _ => s
  }

  /** The badge beside a user's name: all task ids over every bucket. Rendering it needs the `tasks` object. */
  function UserBadge(u: GroupedUser): (n: nat)
    requires u.tasks.Some?
    ensures n == TotalCount(u.tasks.value)
    ensures forall status :: BucketCount(u.tasks.value, status) <= n
  {
    TotalCount(u.tasks.value)
  }

  /** The badge beside a status under an expanded user. */
  function StatusBadge(u: GroupedUser, status: string): (n: nat)
    requires u.tasks.Some?
    ensures n == BucketCount(u.tasks.value, status)
    ensures !HasLabel(u.tasks.value, status) ==> n == 0
    ensures n <= UserBadge(u)
  {
    BucketCount(u.tasks.value, status)
  }
}

=== FILE: sort_option.dfy ===
/** The sort option string `"<key>_<direction>"` chosen in the filter sidebar. */
module SortOption {
  import opened Wrappers
  import opened Text

  /** The option selected when none is given: newest created first. */
  const DefaultSortOption: string := "createdAt_desc"

  /** `const [sortBy, sortOrder] = sort.split("_")`; `sortOrder` is absent
      (JavaScript `undefined`) when the option holds no underscore. */
  datatype SortSpec = SortSpec(sortBy: string, sortOrder: Option<string>)

  /** The first two underscore-separated fields of `sort`. */
  function ParseSort(sort: string): (spec: SortSpec)
    ensures '_' !in spec.sortBy
    ensures spec.sortOrder.Some? ==> '_' !in spec.sortOrder.value
    ensures spec.sortOrder.None? <==> '_' !in sort
    ensures spec.sortOrder.None? ==> spec.sortBy == sort
    ensures spec.sortOrder.Some? ==>
      var head := spec.sortBy + "_" + spec.sortOrder.value;
      |head| <= |sort| && sort[..|head|] == head && (|sort| == |head| || sort[|head|] == '_')
  {
    var parts := Split(sort, '_');
    if |parts| == 1 then
      SortSpec(parts[0], None)
    else
      JoinHead(parts);
      SortSpec(parts[0], Some(parts[1]))
  }

  /** A join of two or more parts starts with its first two parts, followed by the end or a separator. */
  lemma JoinHead(parts: seq<string>)
    requires |parts| >= 2
    ensures
      var head := parts[0] + "_" + parts[1];
      var s := Join(parts, '_');
      |head| <= |s| && s[..|head|] == head && (|s| == |head| || s[|head|] == '_')
  {
    var rest := parts[1..];
    assert Join(parts, '_') == parts[0] + "_" + Join(rest, '_');
    if |rest| > 1 {
      assert Join(rest, '_') == parts[1] + "_" + Join(rest[1..], '_');
    }
  }

  /** Any `key_direction` option with underscore-free fields parses back into those two fields. */
  lemma {:induction false} ParseSortOfPair(key: string, direction: string)
    requires '_' !in key && '_' !in direction
    ensures ParseSort(key + "_" + direction) == SortSpec(key, Some(direction))
  {
    assert Join([key, direction], '_') == key + "_" + direction;
    SplitJoin([key, direction], '_');
  }

  /** The four options offered by the sidebar parse into their key and direction. */
  lemma SidebarOptionsParse()
    ensures ParseSort(DefaultSortOption) == SortSpec("createdAt", Some("desc"))
    ensures ParseSort("createdAt_asc") == SortSpec("createdAt", Some("asc"))
    ensures ParseSort("dueDate_asc") == SortSpec("dueDate", Some("asc"))
    ensures ParseSort("dueDate_desc") == SortSpec("dueDate", Some("desc"))
  {
    NewestFirstParses();
    OldestFirstParses();
    SoonestDueParses();
    LatestDueParses();
  }

  lemma NewestFirstParses()
    ensures ParseSort(DefaultSortOption) == SortSpec("createdAt", Some("desc"))
  {
    assert '_' !in "createdAt" && '_' !in "desc";
    assert DefaultSortOption == "createdAt" + "_" + "desc";
    ParseSortOfPair("createdAt", "desc");
  }

  lemma OldestFirstParses()
    ensures ParseSort("createdAt_asc") == SortSpec("createdAt", Some("asc"))
  {
    assert '_' !in "createdAt" && '_' !in "asc";
    assert "createdAt_asc" == "createdAt" + "_" + "asc";
    ParseSortOfPair("createdAt", "asc");
  }

  lemma SoonestDueParses()
    ensures ParseSort("dueDate_asc") == SortSpec("dueDate", Some("asc"))
  {
    assert '_' !in "dueDate" && '_' !in "asc";
    assert "dueDate_asc" == "dueDate" + "_" + "asc";
    ParseSortOfPair("dueDate", "asc");
  }

  lemma LatestDueParses()
    ensures ParseSort("dueDate_desc") == SortSpec("dueDate", Some("desc"))
  {
    assert '_' !in "dueDate" && '_' !in "desc";
    assert "dueDate_desc" == "dueDate" + "_" + "desc";
    ParseSortOfPair("dueDate", "desc");
  }

  /** The comparator orders ascending only for the exact direction `"asc"`. */
  predicate IsAscending(spec: SortSpec) {
    spec.sortOrder == Some("asc")
  }

  /** The comparator reads `dueDate` only for the exact key `"dueDate"`, `createdAt` otherwise. */
  predicate ByDueDate(spec: SortSpec) {
    spec.sortBy == "dueDate"
  }
}

=== FILE: task_data.dfy ===
/** Tasks as the task-list endpoint returns them, and the status tabs built from its summary. */
module TaskData {
  import opened Wrappers
  import opened Js

  /** The fields of a task the pages compute with; timestamps are milliseconds as integers. */
  datatype Task = Task(id: string, title: string, status: string, createdAt: int, dueDate: int)

  /** The backend's `statusSummary`; any count may be absent. */
  datatype StatusSummary = StatusSummary(
    all: Option<int>,
    pendingTasks: Option<int>,
    inProgressTasks: Option<int>,
    completedTasks: Option<int>)

  /** The body of a task-list response: `tasks` and `statusSummary`, each possibly absent. */
  datatype TaskListBody = TaskListBody(tasks: Option<seq<Task>>, statusSummary: Option<StatusSummary>)

  /** One status tab; `count` is absent when the page passes an undefined count through. */
  datatype Tab = Tab(name: string, count: Option<int>)

  const AllLabel: string := "All"
  const StatusLabels: seq<string> := ["Pending", "In Progress", "Completed"]
  const TabLabels: seq<string> := [AllLabel] + StatusLabels

  /** `response.data?.tasks || []`. */
  function ResponseTasks(body: TaskListBody): seq<Task> {
    body.tasks.GetOr([])
  }

  /** The count a summary field holds, absent when the summary or the field is. */
  function SummaryField(summary: Option<StatusSummary>, f: StatusSummary -> Option<int>): Option<int> {
    match summary
    case Some(s) => f(s)
    case None => None
  }

  function AllOf(s: StatusSummary): Option<int> { s.all }
  function PendingOf(s: StatusSummary): Option<int> { s.pendingTasks }
  function InProgressOf(s: StatusSummary): Option<int> { s.inProgressTasks }
  function CompletedOf(s: StatusSummary): Option<int> { s.completedTasks }

  /** The tab array: the four labels in fixed order; All, In Progress and Completed
      count 0 when their summary field is missing, Pending is passed through as is. */
  function BuildTabs(summary: Option<StatusSummary>): (tabs: seq<Tab>)
    ensures |tabs| == |TabLabels| == 4
    ensures forall i | 0 <= i < |tabs| :: tabs[i].name == TabLabels[i]
    ensures forall i | 0 <= i < |tabs| && i != 1 :: tabs[i].count.Some?
    ensures tabs[1].count == SummaryField(summary, PendingOf)
    ensures SummaryField(summary, AllOf).Some? ==> tabs[0].count == SummaryField(summary, AllOf)
    ensures SummaryField(summary, AllOf).None? ==> tabs[0].count == Some(0)
    ensures SummaryField(summary, InProgressOf).Some? ==> tabs[2].count == SummaryField(summary, InProgressOf)
    ensures SummaryField(summary, InProgressOf).None? ==> tabs[2].count == Some(0)
    ensures SummaryField(summary, CompletedOf).Some? ==> tabs[3].count == SummaryField(summary, CompletedOf)
    ensures SummaryField(summary, CompletedOf).None? ==> tabs[3].count == Some(0)
  {
    [ Tab(AllLabel, Some(OrZero(SummaryField(summary, AllOf)))),
      Tab(StatusLabels[0], SummaryField(summary, PendingOf)),
      Tab(StatusLabels[1], Some(OrZero(SummaryField(summary, InProgressOf)))),
      Tab(StatusLabels[2], Some(OrZero(SummaryField(summary, CompletedOf)))) ]
  }

  /** The page shows the tab strip iff the first tab's count is positive (`tabs?.[0]?.count > 0`). */
  predicate ShowTabs(tabs: seq<Tab>) {
    |tabs| > 0 && tabs[0].count.Some? && tabs[0].count.value > 0
  }

  /** The tab strip of a fetched summary is shown exactly when the summary reports a positive total. */
  lemma ShowTabsIffPositiveTotal(summary: Option<StatusSummary>)
    ensures ShowTabs(BuildTabs(summary)) <==>
      (summary.Some? && summary.value.all.Some? && summary.value.all.value > 0)
  {
  }
}

=== FILE: task_order.dfy ===
/** The client-side ordering both task pages apply to a fetched task list: a stable
    sort whose comparator is `key(a) - key(b)` for `"asc"` and `key(b) - key(a)` otherwise. */
module TaskOrder {
  import opened TaskData
  import opened SortOption

  /** The timestamp the comparator reads. */
  function Key(t: Task, spec: SortSpec): int {
    if ByDueDate(spec) then t.dueDate else t.createdAt
  }

  /** The comparator's sign: negative when `a` sorts first, positive when `b` does. */
  function Compare(a: Task, b: Task, spec: SortSpec): int {
    if IsAscending(spec) then Key(a, spec) - Key(b, spec) else Key(b, spec) - Key(a, spec)
  }

  /** A rank such that the comparator is the difference of ranks, so that the
      descending order is the ascending order on the negated key. */
  function Rank(t: Task, spec: SortSpec): int {
    if IsAscending(spec) then Key(t, spec) else -Key(t, spec)
  }

  lemma CompareIsRankDifference(a: Task, b: Task, spec: SortSpec)
    ensures Compare(a, b, spec) == Rank(a, spec) - Rank(b, spec)
  {
  }

  ghost predicate SortedByRank(s: seq<Task>, spec: SortSpec) {
    forall i, j | 0 <= i < j < |s| :: Rank(s[i], spec) <= Rank(s[j], spec)
  }

  /** The order the page promises: non-decreasing key for `"asc"`, non-increasing for any other direction. */
  ghost predicate OrderedFor(s: seq<Task>, spec: SortSpec) {
    && (IsAscending(spec) ==> forall i, j | 0 <= i < j < |s| :: Key(s[i], spec) <= Key(s[j], spec))
    && (!IsAscending(spec) ==> forall i, j | 0 <= i < j < |s| :: Key(s[i], spec) >= Key(s[j], spec))
  }

  /** The tasks of `s` with rank `k`, in their order in `s`. */
  function OfRank(s: seq<Task>, spec: SortSpec, k: int): seq<Task> {
    if |s| == 0 then []
    else (if Rank(s[0], spec) == k then [s[0]] else []) + OfRank(s[1..], spec, k)
  }

  /** Stability: tasks that compare equal keep their relative input order. */
  ghost predicate SameTieOrder(r: seq<Task>, s: seq<Task>, spec: SortSpec) {
    forall k {:trigger OfRank(r, spec, k)} :: OfRank(r, spec, k) == OfRank(s, spec, k)
  }

  /** Inserts `x` in front of the first task whose rank is not smaller. */
  function Insert(x: Task, s: seq<Task>, spec: SortSpec): (r: seq<Task>)
    ensures multiset(r) == multiset(s) + multiset{x}
    ensures |r| == |s| + 1
  {
    if |s| == 0 then [x]
    else if Rank(x, spec) <= Rank(s[0], spec) then [x] + s
    else
      var rest := Insert(x, s[1..], spec);
      assert s == [s[0]] + s[1..];
      [s[0]] + rest
  }

  ghost predicate RanksAtLeast(s: seq<Task>, spec: SortSpec, b: int) {
    forall i | 0 <= i < |s| :: b <= Rank(s[i], spec)
  }

  lemma {:induction false} InsertKeepsLowerBound(x: Task, s: seq<Task>, spec: SortSpec, b: int)
    requires RanksAtLeast(s, spec, b) && b <= Rank(x, spec)
    ensures RanksAtLeast(Insert(x, s, spec), spec, b)
    decreases |s|
  {
    if |s| > 0 && Rank(x, spec) > Rank(s[0], spec) {
      InsertKeepsLowerBound(x, s[1..], spec, b);
    }
  }

  lemma SortedCons(h: Task, t: seq<Task>, spec: SortSpec)
    requires SortedByRank(t, spec) && RanksAtLeast(t, spec, Rank(h, spec))
    ensures SortedByRank([h] + t, spec)
  {
  }

  lemma {:induction false} InsertSorted(x: Task, s: seq<Task>, spec: SortSpec)
    requires SortedByRank(s, spec)
    ensures SortedByRank(Insert(x, s, spec), spec)
    decreases |s|
  {
    if |s| == 0 {
    } else if Rank(x, spec) <= Rank(s[0], spec) {
      SortedCons(x, s, spec);
    } else {
      InsertSorted(x, s[1..], spec);
      InsertKeepsLowerBound(x, s[1..], spec, Rank(s[0], spec));
      SortedCons(s[0], Insert(x, s[1..], spec), spec);
    }
  }

  /** Filtering by rank distributes over a leading element. */
  lemma OfRankCons(h: Task, t: seq<Task>, spec: SortSpec, k: int)
    ensures OfRank([h] + t, spec, k) == (if Rank(h, spec) == k then [h] else []) + OfRank(t, spec, k)
  {
    assert ([h] + t)[0] == h && ([h] + t)[1..] == t;
  }

  /** The step of `InsertTies` where `x` moves past a head of strictly smaller rank. */
  lemma InsertTiesPastHead(x: Task, s: seq<Task>, spec: SortSpec, k: int)
    requires |s| > 0 && Rank(s[0], spec) < Rank(x, spec)
    requires OfRank(Insert(x, s[1..], spec), spec, k)
      == (if Rank(x, spec) == k then [x] else []) + OfRank(s[1..], spec, k)
    ensures OfRank(Insert(x, s, spec), spec, k)
      == (if Rank(x, spec) == k then [x] else []) + OfRank(s, spec, k)
  {
    var tail := s[1..];
    var rest := Insert(x, tail, spec);
    assert Insert(x, s, spec) == [s[0]] + rest;
    assert s == [s[0]] + tail;
    OfRankCons(s[0], rest, spec, k);
    OfRankCons(s[0], tail, spec, k);
    if Rank(x, spec) == k {
      assert OfRank(Insert(x, s, spec), spec, k) == OfRank(rest, spec, k);
      assert OfRank(s, spec, k) == OfRank(tail, spec, k);
    } else {
      assert OfRank(rest, spec, k) == OfRank(tail, spec, k);
    }
  }

  /** Inserting `x` puts it ahead of every task of its own rank. */
  lemma {:induction false} InsertTies(x: Task, s: seq<Task>, spec: SortSpec, k: int)
    ensures OfRank(Insert(x, s, spec), spec, k)
      == (if Rank(x, spec) == k then [x] else []) + OfRank(s, spec, k)
    decreases |s|
  {
    if |s| == 0 || Rank(x, spec) <= Rank(s[0], spec) {
      assert Insert(x, s, spec) == [x] + s;
      OfRankCons(x, s, spec, k);
    } else {
      InsertTies(x, s[1..], spec, k);
      InsertTiesPastHead(x, s, spec, k);
    }
  }

  /** Stable insertion sort by rank. */
  function InsertionSort(s: seq<Task>, spec: SortSpec): (r: seq<Task>)
    ensures multiset(r) == multiset(s)
    ensures |r| == |s|
  {
    if |s| == 0 then []
    else
      assert s == [s[0]] + s[1..];
      Insert(s[0], InsertionSort(s[1..], spec), spec)
  }

  lemma {:induction false} InsertionSortSorted(s: seq<Task>, spec: SortSpec)
    ensures SortedByRank(InsertionSort(s, spec), spec)
    ensures SameTieOrder(InsertionSort(s, spec), s, spec)
    decreases |s|
  {
    if |s| > 0 {
      var tail := InsertionSort(s[1..], spec);
      InsertionSortSorted(s[1..], spec);
      InsertSorted(s[0], tail, spec);
      forall k
        ensures OfRank(InsertionSort(s, spec), spec, k) == OfRank(s, spec, k)
      {
        InsertTies(s[0], tail, spec, k);
      }
    }
  }

  lemma SortedByRankIsOrdered(s: seq<Task>, spec: SortSpec)
    requires SortedByRank(s, spec)
    ensures OrderedFor(s, spec)
  {
    forall i, j | 0 <= i < j < |s|
      ensures IsAscending(spec) ==> Key(s[i], spec) <= Key(s[j], spec)
      ensures !IsAscending(spec) ==> Key(s[i], spec) >= Key(s[j], spec)
    {
      assert Rank(s[i], spec) <= Rank(s[j], spec);
    }
  }

  /** The page's `tasks.sort(...)` for the option `sort`: a permutation of the input,
      ordered by the chosen timestamp in the chosen direction, ties kept in input order. */
  function SortTasks(tasks: seq<Task>, sort: string): (r: seq<Task>)
    ensures multiset(r) == multiset(tasks)
    ensures OrderedFor(r, ParseSort(sort))
    ensures SameTieOrder(r, tasks, ParseSort(sort))
  {
    var spec := ParseSort(sort);
    InsertionSortSorted(tasks, spec);
    SortedByRankIsOrdered(InsertionSort(tasks, spec), spec);
    InsertionSort(tasks, spec)
  }
}

=== FILE: task_query.dfy ===
/** The query parameters the task pages send with a task-list request, and the status they filter on. */
module TaskQuery {
  import opened Wrappers
  import opened Js
  import opened SortOption
  import Text

  /** Request parameters by name; a parameter left `undefined` is not sent and is absent here. */
  type Params = map<string, string>

  const AdminKeys: set<string> := {"status", "sortBy", "sortOrder", "assignedTo"}
  const UserKeys: set<string> := {"status", "sortBy", "sortOrder", "search"}

  /** `selectedStatus || filterStatus`: the sidebar's status when truthy, the tab's otherwise. */
  function EffectiveStatus(selectedStatus: Option<string>, filterStatus: string): (s: string)
    ensures Truthy(selectedStatus) ==> s == selectedStatus.value
    ensures !Truthy(selectedStatus) ==> s == filterStatus
    ensures s == "" ==> filterStatus == ""
  {
    OrElse(selectedStatus, filterStatus)
  }

  /** `status` is sent iff truthy and not `"All"`. */
  function StatusParam(status: Option<string>): Params {
    if Truthy(status) && status.value != "All" then map["status" := status.value] else map[]
  }

  /** For a non-empty option, `sortBy` and `sortOrder` are its first two underscore fields. */
  function SortParams(sort: string): Params {
    if sort == "" then map[]
    else
      var spec := ParseSort(sort);
      match spec.sortOrder
      case Some(order) => map["sortBy" := spec.sortBy, "sortOrder" := order]
      case None => map["sortBy" := spec.sortBy]
  }

  /** The Manage Tasks request: status, sort and assignee parameters. */
  function AdminParams(userId: Option<string>, status: Option<string>, sort: string): (p: Params)
    ensures "status" in p <==> Truthy(status) && status.value != "All"
    ensures "status" in p ==> p["status"] == status.value
    ensures "sortBy" in p <==> sort != ""
    ensures "sortBy" in p ==> p["sortBy"] == ParseSort(sort).sortBy
    ensures "sortOrder" in p <==> '_' in sort
    ensures "sortOrder" in p ==> Some(p["sortOrder"]) == ParseSort(sort).sortOrder
    ensures "assignedTo" in p <==> Truthy(userId)
    ensures "assignedTo" in p ==> p["assignedTo"] == userId.value
    ensures p.Keys <= AdminKeys
  {
    var p := StatusParam(status) + SortParams(sort);
    if Truthy(userId) then p["assignedTo" := userId.value] else p
  }

  /** The My Tasks request: status, sort and search parameters, the search term verbatim. */
  function UserParams(status: Option<string>, sort: string, search: string): (p: Params)
    ensures "status" in p <==> Truthy(status) && status.value != "All"
    ensures "status" in p ==> p["status"] == status.value
    ensures "sortBy" in p <==> sort != ""
    ensures "sortBy" in p ==> p["sortBy"] == ParseSort(sort).sortBy
    ensures "sortOrder" in p <==> '_' in sort
    ensures "sortOrder" in p ==> Some(p["sortOrder"]) == ParseSort(sort).sortOrder
    ensures "search" in p <==> search != ""
    ensures "search" in p ==> p["search"] == search
    ensures "assignedTo" !in p
    ensures p.Keys <= UserKeys
  {
    var p := StatusParam(status) + SortParams(sort);
    if search != "" then p["search" := search] else p
  }

  /** Without a search term the two pages send the same request as Manage Tasks with no user selected. */
  lemma UserParamsWithoutSearchAreAdminParams(status: Option<string>, sort: string)
    ensures UserParams(status, sort, "") == AdminParams(None, status, sort)
  {
  }

  /** A `key_direction` option is sent as exactly that key and direction, from which the option is rebuilt. */
  lemma SortParamsRoundTrip(userId: Option<string>, status: Option<string>, key: string, direction: string)
    requires '_' !in key && '_' !in direction
    ensures var p := AdminParams(userId, status, key + "_" + direction);
      && "sortBy" in p && "sortOrder" in p
      && p["sortBy"] == key && p["sortOrder"] == direction
      && p["sortBy"] + "_" + p["sortOrder"] == key + "_" + direction
  {
    ParseSortOfPair(key, direction);
  }

  /** A whitespace-only search term is truthy, so it is sent unchanged, without trimming. */
  lemma BlankSearchIsSent(status: Option<string>, sort: string, search: string)
    requires search != "" && Text.IsBlank(search)
    ensures var p := UserParams(status, sort, search); "search" in p && p["search"] == search
  {
  }
}

=== FILE: text.dfy ===
/** String operations of the JavaScript runtime that the pages use: `trim` and `split`. */
module Text {

  /** The characters `String.prototype.trim` removes: ECMAScript WhiteSpace and LineTerminator. */
  predicate IsJsWhitespace(c: char) {
    || c == '\t' || c == '\n' || c == '\U{000B}' || c == '\U{000C}' || c == '\r'
    || c == ' ' || c == '\U{00A0}' || c == '\U{1680}'
    || ('\U{2000}' <= c <= '\U{200A}')
    || c == '\U{2028}' || c == '\U{2029}' || c == '\U{202F}' || c == '\U{205F}'
    || c == '\U{3000}' || c == '\U{FEFF}'
  }

  /** A string made only of whitespace (the empty string included). */
  predicate IsBlank(s: string) {
    forall i | 0 <= i < |s| :: IsJsWhitespace(s[i])
  }

  /** Drops leading whitespace. */
  function TrimStart(s: string): (r: string)
    ensures |r| <= |s| && r == s[|s| - |r|..]
    ensures forall i | 0 <= i < |s| - |r| :: IsJsWhitespace(s[i])
    ensures r != "" ==> !IsJsWhitespace(r[0])
  {
    if s == "" || !IsJsWhitespace(s[0]) then s else TrimStart(s[1..])
  }

  /** Drops trailing whitespace. */
  function TrimEnd(s: string): (r: string)
    ensures |r| <= |s| && r == s[..|r|]
    ensures forall i | |r| <= i < |s| :: IsJsWhitespace(s[i])
    ensures r != "" ==> !IsJsWhitespace(r[|r| - 1])
  {
    if s == "" || !IsJsWhitespace(s[|s| - 1]) then s else TrimEnd(s[..|s| - 1])
  }

  /** `String.prototype.trim`: empty exactly for blank strings, and otherwise
      starting and ending with a non-whitespace character of the input. */
  function Trim(s: string): (r: string)
    ensures r == "" <==> IsBlank(s)
    ensures r != "" ==> !IsJsWhitespace(r[0]) && !IsJsWhitespace(r[|r| - 1])
    ensures |r| <= |s|
    ensures var a := |s| - |TrimStart(s)|;
      && a + |r| <= |s| && r == s[a..a + |r|]
      && (forall i | 0 <= i < a :: IsJsWhitespace(s[i]))
      && (forall i | a + |r| <= i < |s| :: IsJsWhitespace(s[i]))
  {
    var t := TrimStart(s);
    var r := TrimEnd(t);
    TrimPieces(s, t, r);
    r
  }

  /** What trimming both ends gives, from the contracts of the two halves alone: `t` is the input
      without its leading whitespace and `r` is `t` without its trailing whitespace. */
  lemma TrimPieces(s: string, t: string, r: string)
    requires |t| <= |s| && t == s[|s| - |t|..]
    requires forall i | 0 <= i < |s| - |t| :: IsJsWhitespace(s[i])
    requires t != "" ==> !IsJsWhitespace(t[0])
    requires |r| <= |t| && r == t[..|r|]
    requires forall i | |r| <= i < |t| :: IsJsWhitespace(t[i])
    requires r != "" ==> !IsJsWhitespace(r[|r| - 1])
    ensures r == "" <==> IsBlank(s)
    ensures r != "" ==> !IsJsWhitespace(r[0])
    ensures var a := |s| - |t|;
      && a + |r| <= |s| && r == s[a..a + |r|]
      && (forall i | a + |r| <= i < |s| :: IsJsWhitespace(s[i]))
  {
    var a := |s| - |t|;
    assert forall i | a <= i < |s| :: s[i] == t[i - a];
    if r != "" {
      assert r[0] == t[0] == s[a];
    }
  }

  /** The position of the first `c` in `s`. */
  function FirstIndex(s: string, c: char): (i: nat)
    requires c in s
    ensures i < |s| && s[i] == c && c !in s[..i]
  {
    if s[0] == c then 0
    else
      var i := FirstIndex(s[1..], c);
      assert s[..i + 1] == [s[0]] + s[1..][..i];
      i + 1
  }

  /** Joins non-empty `parts` with `sep` between consecutive parts. */
  function Join(parts: seq<string>, sep: char): string
    requires |parts| >= 1
  {
    if |parts| == 1 then parts[0] else parts[0] + [sep] + Join(parts[1..], sep)
  }

  /** `s.split(sep)` for a one-character separator: the pieces between
      separators, none containing `sep`, which join back to `s`. */
  function Split(s: string, sep: char): (parts: seq<string>)
    ensures |parts| >= 1
    ensures forall i | 0 <= i < |parts| :: sep !in parts[i]
    ensures Join(parts, sep) == s
    decreases |s|
  {
    if sep !in s then [s]
    else
      var i := FirstIndex(s, sep);
      var rest := Split(s[i + 1..], sep);
      var parts := [s[..i]] + rest;
      assert parts[1..] == rest;
      assert s == s[..i] + [sep] + s[i + 1..];
      parts
  }

  /** Splitting a join of separator-free parts gives the parts back. */
  lemma {:induction false} SplitJoin(parts: seq<string>, sep: char)
    requires |parts| >= 1
    requires forall i | 0 <= i < |parts| :: sep !in parts[i]
    ensures Split(Join(parts, sep), sep) == parts
    decreases |parts|
  {
    var s := Join(parts, sep);
    if |parts| > 1 {
      var p0 := parts[0];
      var tail := Join(parts[1..], sep);
      assert s == p0 + [sep] + tail;
      assert s[|p0|] == sep;
      var i := FirstIndex(s, sep);
      assert i == |p0|;
      assert s[..i] == p0;
      assert s[i + 1..] == tail;
      SplitJoin(parts[1..], sep);
      assert Split(s, sep) == [p0] + parts[1..];
    }
  }
}

=== FILE: user_card.dfy ===
/** The user card on Manage Users: avatar or initial, and three coloured task counts. */
module UserCard {
  import opened Wrappers
  import opened Js
  import opened Text
  import opened ManageUsersPage

  /** `profileImageUrl` when it is present and not blank after trimming; the URL used is the untrimmed one. */
  function ProfileImageSrc(url: Option<string>): (src: Option<string>)
    ensures src.Some? <==> url.Some? && !IsBlank(url.value)
    ensures src.Some? ==> src == url
  {
    if Truthy(url) && Trim(url.value) != "" then url else None
  }

  /** ASCII upper-casing of one character. */
  function UpperAscii(c: char): char {
    if 'a' <= c <= 'z' then (c as int - 'a' as int + 'A' as int) as char else c
  }

  /** The placeholder letter: `name?.charAt(0).toUpperCase() || "?"`. */
  function Initial(name: Option<string>): (s: string)
    ensures |s| == 1
    ensures !Truthy(name) ==> s == "?"
    ensures Truthy(name) ==> s[0] == UpperAscii(name.value[0])
    ensures !('a' <= s[0] <= 'z')
  {
    if Truthy(name) then [UpperAscii(name.value[0])] else "?"
  }

  const CyanTag: string := "text-cyan-500 bg-gray-50"
  const IndigoTag: string := "text-indigo-500 bg-gray-50"
  const VioletTag: string := "text-violet-500 bg-gray-50"

  /** `getStatusTagColor`: "In Progress" is cyan, "Completed" indigo, anything else violet. */
  function TagColor(status: string): (c: string)
    ensures c == CyanTag <==> status == "In Progress"
    ensures c == IndigoTag <==> status == "Completed"
    ensures c == VioletTag <==> status != "In Progress" && status != "Completed"
  {
    match status
    case "In Progress" => CyanTag
    case "Completed" => IndigoTag
    case _ => VioletTag
  }

  /** One stat tile: label, count shown, and its tag colour. */
  datatype Stat = Stat(name: string, count: int, color: string)

  /** The three tiles, each count `|| 0`. */
  function Stats(pending: Option<int>, inProgress: Option<int>, completed: Option<int>): (tiles: seq<Stat>)
    ensures |tiles| == 3
    ensures tiles[0].name == "Pending" && tiles[1].name == "In Progress" && tiles[2].name == "Completed"
    ensures forall i | 0 <= i < 3 :: tiles[i].color == TagColor(tiles[i].name)
    ensures tiles[0].color == VioletTag && tiles[1].color == CyanTag && tiles[2].color == IndigoTag
    ensures pending.None? ==> tiles[0].count == 0
    ensures inProgress.None? ==> tiles[1].count == 0
    ensures completed.None? ==> tiles[2].count == 0
  {
    [ Stat("Pending", OrZero(pending), TagColor("Pending")),
      Stat("In Progress", OrZero(inProgress), TagColor("In Progress")),
      Stat("Completed", OrZero(completed), TagColor("Completed")) ]
  }

  /** A merged roster row shows its own three counts. */
  lemma MergedRowStats(row: MergedUser)
    ensures var tiles := Stats(Some(row.pendingTask), Some(row.inProgressTask), Some(row.completedTask));
      tiles[0].count == row.pendingTask && tiles[1].count == row.inProgressTask
      && tiles[2].count == row.completedTask
  {
  }
}

=== FILE: user_mailbox.dfy ===
/** The assignee's mailbox: pending assignment requests with Approve and a Reject dialog that needs a reason. */
module UserMailbox {
  import opened Wrappers
  import opened Js
  import opened Text
  import opened Requests

  datatype Mailbox = Mailbox(requests: seq<Request>, showRejectModal: bool, rejectReason: string, selectedRequestId: Option<string>)

  const Initial: Mailbox := Mailbox([], false, "", None)

  datatype Action = Approve | Reject

  /** The action's name as sent in the request body. */
  function ActionName(a: Action): string {
    match a
    case Approve => "approve"
    case Reject => "reject"
  }

  /** `PUT` to the respond endpoint of `requestId` with body `{action, rejectionReason}`. */
  datatype RespondCall = RespondCall(requestId: Option<string>, action: Action, rejectionReason: Option<string>)

  /** The state after a handler and the call it starts, if any. */
  datatype Step = Step(mailbox: Mailbox, call: Option<RespondCall>)

  /** `fetchRequests`: a body replaces the list with its `requests` or []; a failure keeps it. */
  function LoadRequests(m: Mailbox, response: Fetched<RequestListBody>): (n: Mailbox)
    ensures response.Loaded? ==> n == m.(requests := response.body.requests.GetOr([]))
    ensures response.FetchFailed? ==> n == m
  {
    match response
    case Loaded(body) => m.(requests := body.requests.GetOr([]))
    case FetchFailed => m
  }

  /** The Approve button: sends `approve` with a null reason, changing nothing yet. */
  function ApproveClick(m: Mailbox, requestId: string): (s: Step)
    ensures s.mailbox == m
    ensures s.call == Some(RespondCall(Some(requestId), Approve, None))
  {
    Step(m, Some(RespondCall(Some(requestId), Approve, None)))
  }

  /** `handleRejectClick`: selects the request and opens the dialog; the draft reason is kept. */
  function RejectClick(m: Mailbox, requestId: string): (n: Mailbox)
    ensures n.selectedRequestId == Some(requestId) && n.showRejectModal
    ensures n.rejectReason == m.rejectReason && n.requests == m.requests
  {
    m.(selectedRequestId := Some(requestId), showRejectModal := true)
  }

  /** Typing in the reason box: the draft becomes the text, and a later submit sends it
      exactly when it is not blank. */
  function EditReason(m: Mailbox, text: string): (n: Mailbox)
    ensures n.rejectReason == text
    ensures n.showRejectModal == m.showRejectModal && n.selectedRequestId == m.selectedRequestId
    ensures n.requests == m.requests
    ensures RejectSubmit(n).call.None? <==> IsBlank(text)
  {
    m.(rejectReason := text)
  }

  /** `handleRejectSubmit`: a reason that is blank after trimming sends nothing and changes nothing;
      any other reason is sent as typed, untrimmed, for the selected request. */
  function RejectSubmit(m: Mailbox): (s: Step)
    ensures s.mailbox == m
    ensures s.call.None? <==> IsBlank(m.rejectReason)
    ensures s.call.Some? ==> s.call.value == RespondCall(m.selectedRequestId, Reject, Some(m.rejectReason))
  {
    if Trim(m.rejectReason) == "" then Step(m, None)
    else Step(m, Some(RespondCall(m.selectedRequestId, Reject, Some(m.rejectReason))))
  }

  /** The Cancel button of the dialog. */
  function Cancel(m: Mailbox): (n: Mailbox)
    ensures !n.showRejectModal && n.rejectReason == "" && n.selectedRequestId.None?
    ensures n.requests == m.requests
  {
    m.(showRejectModal := false, rejectReason := "", selectedRequestId := None)
  }

  /** The state after a respond call finishes, and whether the list is fetched again. */
  datatype Completion = Completion(mailbox: Mailbox, refetch: bool)

  /** `respondToRequest` after its `PUT`: success closes and clears the dialog exactly as Cancel does
      and refetches; failure changes nothing. */
  function RespondFinished(m: Mailbox, succeeded: bool): (c: Completion)
    ensures succeeded ==> c == Completion(Cancel(m), true)
    ensures !succeeded ==> c == Completion(m, false)
  {
    if succeeded then Completion(m.(rejectReason := "", showRejectModal := false, selectedRequestId := None), true)
    else Completion(m, false)
  }

  /** Reject, type a reason that is not blank, submit: the call rejects that request with the reason as typed. */
  lemma RejectFlow(m: Mailbox, requestId: string, reason: string)
    requires !IsBlank(reason)
    ensures RejectSubmit(EditReason(RejectClick(m, requestId), reason)).call
      == Some(RespondCall(Some(requestId), Reject, Some(reason)))
  {
  }

  /** A whitespace-only reason never reaches the server, whichever request is selected. */
  lemma BlankReasonNeverSent(m: Mailbox, requestId: string, reason: string)
    requires IsBlank(reason)
    ensures var n := EditReason(RejectClick(m, requestId), reason);
      RejectSubmit(n) == Step(n, None)
  {
  }

  /** The draft survives switching the dialog to another request. */
  lemma DraftKeptAcrossRequests(m: Mailbox, first: string, second: string, reason: string)
    ensures RejectClick(EditReason(RejectClick(m, first), reason), second).rejectReason == reason
  {
  }

  /** `req.taskId?.title || "Unknown Task"`. */
  function TaskLabel(r: Request): (s: string)
    ensures s != ""
    ensures Truthy(TitleOf(r.taskId)) ==> s == TitleOf(r.taskId).value
    ensures !Truthy(TitleOf(r.taskId)) ==> s == "Unknown Task"
  {
    OrElse(TitleOf(r.taskId), "Unknown Task")
  }

  /** `req.assignedByAdminId?.name || "Unknown Admin"`. */
  function AdminLabel(r: Request): (s: string)
    ensures s != ""
    ensures Truthy(NameOf(r.assignedByAdminId)) ==> s == NameOf(r.assignedByAdminId).value
    ensures !Truthy(NameOf(r.assignedByAdminId)) ==> s == "Unknown Admin"
  {
    DisplayName(r.assignedByAdminId, "Unknown Admin")
  }

  /** The two labels fall back exactly when the populated field is missing or empty: a bare id,
      a missing or null reference, and a populated object without a title or name all fall back. */
  lemma LabelsFallBack(r: Request)
    ensures Truthy(TitleOf(r.taskId)) ==> TaskLabel(r) == TitleOf(r.taskId).value
    ensures !r.taskId.PopulatedTask? ==> TaskLabel(r) == "Unknown Task"
    ensures r.taskId.PopulatedTask? && !Truthy(r.taskId.title) ==> TaskLabel(r) == "Unknown Task"
    ensures Truthy(NameOf(r.assignedByAdminId)) ==> AdminLabel(r) == NameOf(r.assignedByAdminId).value
    ensures !r.assignedByAdminId.PopulatedUser? ==> AdminLabel(r) == "Unknown Admin"
    ensures r.assignedByAdminId.PopulatedUser? && !Truthy(r.assignedByAdminId.name) ==> AdminLabel(r) == "Unknown Admin"
  {
  }
}

=== FILE: wrappers.dfy ===
/** Optional values and fetch outcomes shared by every page model. */
module Wrappers {

  /** A value that may be absent: JavaScript's `null`/`undefined` versus a present value. */
  datatype Option<+T> = None | Some(value: T) {

    /** The present value, or `default` when absent. */
    function GetOr(default: T): T {
      match this
      case Some(v) => v
      case None => default
    }
  }

  /** The outcome of one HTTP round trip, taken as an input of the model:
      the decoded response body, or any failure the caller's `catch` receives. */
  datatype Fetched<+T> = Loaded(body: T) | FetchFailed
}
